=== FILE: README.md ===
# YouTube transcript summarizer — a Dafny model of its text core

The application fetches the captions of a YouTube video, cleans them into one
plain-text transcript, and produces an extractive summary: the best-scoring
sentences, put back in the order they appear in the transcript. This project
models the deterministic text processing at the centre of it:

- `clean_transcript` (cleaner.dfy, module `Cleaner`) is the normaliser. It removes
  `<…>` tags, runs the (dead) timestamp pass, drops a word equal ignoring case to
  the word before it, and collapses whitespace. It then splits on runs of `.`, `!`
  and `?`, keeps the first occurrence of each trimmed non-empty fragment, rejoins
  them with `". "` and squeezes repeated dots. `Cleaned` is the specification
  function, and `CleanTranscript` is the imperative version with the two loops of
  the source.
- `parse_vtt_content` (vtt.dfy, module `Vtt`) is a line filter over a WebVTT
  payload. It follows the file structure of section 4.1 of the W3C WebVTT
  specification only loosely:
  - it drops empty lines, lines starting with `WEBVTT` or `-->`, lines starting
    with `digits:digits:digits`, and all-digit lines;
  - it cleans every other line and keeps it when the cleaned text is not empty;
  - it joins the kept lines with single spaces.
- `get_transcript` (fetcher.dfy, module `Fetcher`) has two pure parts and a loop:
  - video-ID extraction: the markers are `v=`, then `youtu.be/`, then
    `youtube.com/embed/`; the ID is the text between the first and second
    occurrence of the marker, cut at `&` or `?`;
  - the 11-character check;
  - the fallback loop over the acquisition strategies. The strategies are given
    as a sequence of outcomes: returned text, or an exception.
  - The module also models the fragment filter and the cap of the scraping
    strategy.
- `summarize_text` (summarizer.dfy, module `Summarizer`) is modelled on its built-in
  fallback path:
  - a regular-expression sentence split;
  - `\b\w+\b` tokens of the lower-cased sentence;
  - the fixed 14-word stopword set, with no lemmatizer.

  Word frequencies (a `Counter`, modelled as a multiset) and sentence scores (a
  dict, modelled as its item sequence in insertion order) are filled by loops, as
  in the source. Then come a stable sort by score, highest first; Python slicing
  by `max_sentences`, where a negative value drops from the end; a stable sort by
  first index in the sentence list; and a join with spaces. Every failure is one
  constructor of `Outcome`, whose `Message()` is the exact `❌` string.

Two further modules are support code. `Text` (text.dfy) holds Python's string
primitives over ASCII: `str.strip`, `str.split`, `str.join`, `re.sub(r'\s+', ' ')`,
`re.split(r'[.!?]+')`, `re.sub(r'\.+', '.')`, `in`, `list.index`, list comprehensions
with a condition, and order-keeping deduplication. `Sorting` (sorting.dfy) holds
`sorted` with a key. A stable sort has exactly one possible result, so it is
defined as an insertion sort, and that definition is proved sorted and a
permutation, and stable on input without duplicate elements.

Behaviour of the code worth knowing:

- `clean_transcript` is not idempotent: `"y.y y"` cleans to `"y. y y"`, which
  cleans to `"y"`.
- The cleaned text never ends in `.`, and `CleanedShape` proves this. For example,
  `"Hello world. Hello world. Goodbye."` cleans to `"Hello world. Goodbye"`.
- An ID of the wrong length gives its own message, "Invalid video ID extracted
  from URL", rather than the invalid-URL one.
- A strategy that returns the empty string counts as a success: only the `❌`
  prefix is looked at (`EmptyTextIsSuccess`).
- An all-stopword transcript of at most `max_sentences` sentences is returned as
  it is. The "no meaningful words" failure needs more sentences than
  `max_sentences` (`ShortOutcome`, `NoWordsOutcome`).
- A WebVTT timing line without an hours field (`00:01.000 --> 00:04.000`) is not
  recognised as a timing line, and it is kept as text (`ShortTimingLineSurvives`).
- Repeated cue lines are joined with spaces and are not deduplicated across lines.

## Model

| member | source | states |
|---|---|---|
| Cleaner.StripTags | utils/youtube_utils.py:14 | `re.sub(r'<[^>]+>', '', …)`: deletes every `<`, non-`>` characters, `>` match, scanning left to right; `StripTagsTagFree` states its result |
| Cleaner.TimestampEnd | utils/youtube_utils.py:17 | a timestamp match at the start runs from `<` to a `>` at index 11 or later, with no `>` before it |
| Cleaner.StripTimestamps | utils/youtube_utils.py:17 | `re.sub(r'<\d{2}:\d{2}:\d{2}\.\d+>', '', …)`: deletes every timestamp tag, scanning left to right; the two lemmas below show it deletes nothing after tag removal |
| Cleaner.StripTagsTagFree | utils/youtube_utils.py:13-14 | after tag removal no substring is `<`, one or more non-`>` characters, then `>` |
| Cleaner.TimestampPassIsIdentity | utils/youtube_utils.py:16-17 | on tag-free text the timestamp pass deletes nothing |
| Cleaner.TimestampPassAfterTags | utils/youtube_utils.py:13-17 | the timestamp pass after tag removal never changes the text |
| Cleaner.TagEnd | utils/youtube_utils.py:14 | a tag match found at the start is `<`, at least one non-`>` character, then its first `>`; when none is found the text is `<>…` or has no `>` after the `<` |
| Cleaner.KeptWords | utils/youtube_utils.py:14-26 | the words after tag removal, the timestamp pass, `split()` and the word loop |
| Cleaner.DedupWords | utils/youtube_utils.py:20-26 | the words kept by the word loop: never more than the input; the four lemmas below state which |
| Cleaner.DedupWordsSubsequence | utils/youtube_utils.py:20-26 | the kept words are a subsequence of the words and begin with the first word |
| Cleaner.DedupWordsLast | utils/youtube_utils.py:20-26 | the last kept word equals the last input word ignoring case |
| Cleaner.DedupWordsNoRepeats | utils/youtube_utils.py:20-26 | no two neighbouring kept words are equal ignoring case |
| Cleaner.DedupWordsCovers | utils/youtube_utils.py:20-26 | every input word has a kept word equal to it ignoring case: only repeats are dropped |
| Cleaner.DropRepeatedWords | utils/youtube_utils.py:20-26 | the word loop computes exactly the dedup specification |
| Cleaner.UniqueSentences | utils/youtube_utils.py:34-39 | the first occurrence of every non-empty stripped piece of the `[.!?]+` split, in order; `UniqueSentencesFacts` states its properties |
| Cleaner.UniqueSentencesFacts | utils/youtube_utils.py:34-39 | the kept sentences are non-empty, trimmed, free of terminators and pairwise distinct; a fragment is kept exactly when it is a non-empty trimmed piece of the text; the order is the order of first occurrence |
| Cleaner.DropRepeatedSentences | utils/youtube_utils.py:35-39 | the sentence loop keeps the first occurrence of each non-empty trimmed piece, in order |
| Cleaner.JoinSentences | utils/youtube_utils.py:42-46 | join with `". "`, collapse whitespace, strip, squeeze dots; `JoinSentencesShape` states its result |
| Cleaner.JoinSentencesShape | utils/youtube_utils.py:42-46 | joining such sentences with `". "` and tidying gives text without `!`, `?`, `..`, surrounding whitespace, whitespace runs or a trailing `.` |
| Cleaner.Cleaned | utils/youtube_utils.py:6-48 | what `clean_transcript` returns: the input itself when empty, otherwise the stages above in order; `CleanedShape` states its result |
| Cleaner.CleanedShape | utils/youtube_utils.py:10-11 | empty input comes back unchanged; every output has no `!` or `?`, no `..`, no whitespace at the ends, no two whitespace characters in a row and no trailing `.` |
| Cleaner.CleanTranscript | utils/youtube_utils.py:6-48 | the imperative pipeline returns exactly `Cleaned(transcript)`, whose properties are the lemmas above |
| Vtt.StartsWithClock | utils/youtube_utils.py:162 | `re.match(r'^\d+:\d+:\d+', line)`: digits, `:`, digits, `:`, digits at the start of the line |
| Vtt.IsCueText | utils/youtube_utils.py:159-163 | the filter on a stripped line: not empty, not starting with `WEBVTT` or `-->`, no clock at the start, not all digits |
| Vtt.LinePart | utils/youtube_utils.py:157-168 | the part one line contributes: its cleaned text when the stripped line passes the filter and the cleaned text is not empty, otherwise nothing; `LineContribution` and `LinePartShape` state it |
| Vtt.LineContribution | utils/youtube_utils.py:156-168 | a filtered-out line, or one that cleans to nothing, leaves the collected parts as if it were absent; any other line adds its cleaned text at its own position |
| Vtt.CleanedIsCuePart | utils/youtube_utils.py:166-168 | a non-empty cleaned line is trimmed text with no whitespace run, no `!` or `?` and no trailing `.` |
| Vtt.LinePartShape | utils/youtube_utils.py:157-168 | a line contributes at most one part, and that part is such cleaned text |
| Vtt.CuePartsShape | utils/youtube_utils.py:156-168 | every collected part is such cleaned text |
| Vtt.CueParts | utils/youtube_utils.py:154-168 | `transcript_parts` after the loop: the parts of the lines, in order; `CollectParts`, `LineContribution` and `CuePartsShape` state it |
| Vtt.VttTranscript | utils/youtube_utils.py:150-174 | what `parse_vtt_content` returns: the parts of all lines joined by spaces, or the not-found message when there are none; `VttTranscriptShape` states it |
| Vtt.VttTranscriptShape | utils/youtube_utils.py:170-174 | the result is the not-found message exactly when no line survives; otherwise it is the parts joined by single spaces, and it is trimmed, with no whitespace run and no `!` or `?` |
| Vtt.ShortTimingLineSurvives | utils/youtube_utils.py:159-163 | a line opening with `dd:dd.` passes the filter |
| Vtt.AddLine | utils/youtube_utils.py:157-168 | one loop pass appends exactly the part of that line |
| Vtt.CollectParts | utils/youtube_utils.py:153-168 | the loop collects exactly the parts of all lines, in order |
| Vtt.ParseVttContent | utils/youtube_utils.py:150-174 | the method returns exactly `VttTranscript(vttContent)` |
| Fetcher.VideoId | utils/youtube_utils.py:53-66 | there is no ID exactly when the stripped URL contains none of the three markers |
| Fetcher.HasMarker | utils/youtube_utils.py:59-65 | the URL contains one of the three markers; `VideoId` is None exactly when it does not |
| Fetcher.IdAfter | utils/youtube_utils.py:60-64 | `url.split(marker)[1].split(cut)[0]`; `IdAfterShape` states it |
| Fetcher.IdAfterShape | utils/youtube_utils.py:60-64 | the extracted ID starts right after the first occurrence of the marker, holds no cut character, has no occurrence of the marker starting inside it, and ends at the end of the URL, at the next marker or at the cut character |
| Fetcher.VideoIdShape | utils/youtube_utils.py:59-64 | `v=` wins over `youtu.be/`, which wins over `youtube.com/embed/`; the ID is cut at `&` for the first and at `?` for the other two |
| Fetcher.RejectedUrlCallsNothing | utils/youtube_utils.py:59-70 | no marker gives the invalid-URL message, and an ID that is not 11 characters gives the invalid-ID message; both happen with no strategy called |
| Fetcher.Succeeded | utils/youtube_utils.py:84-85 | a strategy succeeds when it returns text that does not start with `❌`; a raised exception is a failure |
| Fetcher.FirstSuccess | utils/youtube_utils.py:81-92 | the index found is a succeeding strategy with only failures before it, and there is none exactly when every strategy fails |
| Fetcher.Fallback | utils/youtube_utils.py:81-97 | the fallback loop's result and number of calls: it never calls more strategies than there are |
| Fetcher.Transcript | utils/youtube_utils.py:50-97 | what `get_transcript` returns and how many strategies it calls: never more than there are |
| Fetcher.FallbackFacts | utils/youtube_utils.py:81-97 | the fallback loop calls only failures before its last call; it reports all-failed only after calling every strategy, all of which failed; if any strategy succeeds, the last one called succeeded and its cleaned text is the result; if every strategy fails, the result is the all-failed message after all of them were called |
| Fetcher.FallbackOutcome | utils/youtube_utils.py:75-97 | with a valid ID: the result is the cleaned text of the first strategy whose text does not start with `❌`, after calling exactly the strategies up to it; otherwise it is the all-failed message after calling all of them |
| Fetcher.LaterStrategiesIrrelevant | utils/youtube_utils.py:85-90 | strategies after the one that succeeded cannot change the result: they are never called |
| Fetcher.FallbackPrefix | utils/youtube_utils.py:81-97 | the fallback loop depends only on the strategies it called |
| Fetcher.EmptyTextIsSuccess | utils/youtube_utils.py:85-90 | a first strategy returning the empty string ends the loop with the empty transcript |
| Fetcher.TryStrategies | utils/youtube_utils.py:81-97 | the loop returns the result and the number of calls of the fallback specification |
| Fetcher.GetTranscript | utils/youtube_utils.py:50-97 | the method returns the result and the number of calls of the `Transcript` specification |
| Fetcher.IsTranscriptFragment | utils/youtube_utils.py:245 | a "text" value is kept when it is longer than 10 characters and does not start with `http` |
| Fetcher.ValidFragments | utils/youtube_utils.py:245 | the kept values, in order; `FilterExact` states what the comprehension keeps |
| Fetcher.ScrapedText | utils/youtube_utils.py:245-247 | there is no scraped text exactly when no "text" value is longer than 10 characters without starting with `http` |
| Fetcher.ScrapedTextShape | utils/youtube_utils.py:245-247 | the scraped text is the valid fragments, the first 50 when there are more, joined by single spaces, and it is longer than 10 characters |
| Text.Lower | utils/summarizer.py:83 | `str.lower()` over ASCII, character by character |
| Text.AllDigits | utils/youtube_utils.py:163 | `str.isdigit()`: not empty and every character a digit |
| Text.IsAlnum | utils/summarizer.py:89-90 | `str.isalnum()`: not empty and every character a letter or digit |
| Text.StartsWith | utils/youtube_utils.py:160-161 | `str.startswith(p)`: p is a prefix |
| Text.Filter | utils/youtube_utils.py:245 | a list comprehension with a condition: never longer than the input, and every kept element passes; `FilterExact` pins it |
| Text.FilterExact | utils/youtube_utils.py:245 | a list comprehension with a condition keeps, in order, exactly the elements that pass it, each as often as it occurs |
| Text.FilterEmpty | utils/summarizer.py:89-90 | the comprehension is empty exactly when no element passes |
| Text.TrimLeft | utils/summarizer.py:49 | `lstrip()`: a suffix with no whitespace first, and only whitespace cut before it |
| Text.TrimRight | utils/summarizer.py:49 | `rstrip()`: a prefix with no whitespace last, and only whitespace cut after it |
| Text.StripSlice | utils/summarizer.py:49 | `strip()` returns a slice of its input, and every character cut away before or after that slice is whitespace |
| Text.Strip | utils/summarizer.py:49 | `strip()` leaves no whitespace at either end and is empty exactly for all-whitespace text |
| Text.CollapseSpaces | utils/summarizer.py:49 | `re.sub(r'\s+', ' ', …)` leaves no two whitespace characters in a row, keeps the text empty or non-empty, and keeps a non-space first or last character |
| Text.CollapseSpacesWords | utils/summarizer.py:49 | `re.sub(r'\s+', ' ', …)` keeps the words: `str.split()` gives the same words before and after |
| Text.CollapseSpacesPlain | utils/youtube_utils.py:30 | every whitespace character left by `re.sub(r'\s+', ' ', …)` is a plain space |
| Text.SplitWords | utils/youtube_utils.py:20 | `str.split()`: every word is non-empty and holds no whitespace; `SplitWordsTrimmedLeft`, `SplitWordsNewWord` and `SplitWordsJoinWord` pin the words, and `CollapseSpacesWords` relates it to whitespace collapsing |
| Text.SplitWordsTrimmedLeft | utils/youtube_utils.py:20 | leading whitespace does not change the words |
| Text.SplitWordsNewWord | utils/youtube_utils.py:20 | a non-space character followed by nothing or by whitespace is a word of its own, in front of the words of the rest |
| Text.SplitWordsJoinWord | utils/youtube_utils.py:20 | a non-space character followed by a non-space character joins the first word of the rest |
| Text.DropTerminators | utils/youtube_utils.py:34 | cuts the leading run of `.`, `!` and `?`: a suffix that does not start with one, with only terminators cut |
| Text.SplitSentences | utils/youtube_utils.py:34 | `re.split(r'[.!?]+', …)`: at least one piece, and no piece holds a terminator; the two lemmas below pin the pieces |
| Text.SplitSentencesPlain | utils/youtube_utils.py:34 | text with no terminator is a single piece, itself |
| Text.SplitSentencesCut | utils/youtube_utils.py:34 | the text before the first terminator is the first piece; the whole run of terminators is dropped and the rest is split on its own |
| Text.SqueezeDots | utils/youtube_utils.py:46 | `re.sub(r'\.+', '.', …)`: never longer, keeps the first and last character, and leaves no two dots in a row; the two lemmas below pin the content |
| Text.SqueezeDotsSplit | utils/youtube_utils.py:46 | a character other than `.` is kept, and the text on either side of it is squeezed independently |
| Text.SqueezeDotsRun | utils/youtube_utils.py:46 | a non-empty run of dots becomes one `.` |
| Text.SplitOn | utils/youtube_utils.py:153 | `str.split('\n')`: at least one piece, and no piece holds the separator |
| Text.SplitOnJoin | utils/youtube_utils.py:153 | joining the pieces with the separator gives the text back |
| Text.NonEmptyStripped | utils/summarizer.py:59 | `[p.strip() for p in pieces if p.strip()]`: never longer, and every piece is non-empty and trimmed; the two lemmas below pin which pieces are kept and in what order |
| Text.NonEmptyStrippedMembers | utils/summarizer.py:59 | a string is kept exactly when it is non-empty and the strip of some input piece |
| Text.NonEmptyStrippedAppend | utils/summarizer.py:59 | the comprehension works piece by piece: over two blocks it is the result of each block, in order |
| Text.Join | utils/youtube_utils.py:42 | `sep.join(parts)`: the parts with the separator between neighbours; `JoinSentencesShape` and `JoinedSummary` state what the joins give |
| Text.Flatten | utils/summarizer.py:78-92 | a per-element accumulation: the contributions of the elements, concatenated in order |
| Text.FlattenAppend | utils/summarizer.py:78-92 | the accumulation over two blocks of elements is the accumulation over each block, in order |
| Text.FlattenSnoc | utils/summarizer.py:78-92 | one more element appends exactly its own contribution |
| Text.FlattenMembers | utils/youtube_utils.py:156-168 | an item is accumulated exactly when some element contributes it |
| Text.FlattenEmpty | utils/summarizer.py:92-94 | the accumulation is empty exactly when every element contributes nothing |
| Text.Find | utils/youtube_utils.py:59-64 | `str.find(m)`: the first position where m occurs, or None exactly when m occurs nowhere |
| Text.Contains | utils/youtube_utils.py:59-63 | `m in s`: m occurs somewhere in s |
| Text.Before | utils/youtube_utils.py:60-64 | `s.split(m)[0]`: a prefix with no occurrence of m starting inside it, ending at the end of s or where m starts |
| Text.Between | utils/youtube_utils.py:60-64 | `s.split(m)[1]`: the text after the first occurrence of m, up to the next one; `IdAfterShape` states it |
| Text.IndexIn | utils/summarizer.py:121 | `list.index(x)`: a position holding x with no x before it |
| Text.FirstOccurrences | utils/youtube_utils.py:36-39 | order-keeping deduplication, never longer than the input; the three lemmas below pin it |
| Text.FirstOccurrencesMembers | utils/youtube_utils.py:38 | deduplication keeps exactly the elements of the input |
| Text.FirstOccurrencesDistinct | utils/youtube_utils.py:38 | deduplication keeps each element once |
| Text.FirstOccurrencesOrder | utils/youtube_utils.py:36-39 | deduplication keeps the order of first occurrence |
| Summarizer.Sentences | utils/summarizer.py:59 | the fallback sentence split: every non-empty stripped piece of the `[.!?]+` split, duplicates kept; `RankedSentences` states it |
| Summarizer.Tokens | utils/summarizer.py:83 | `re.findall(r'\b\w+\b', …)`: every token is a non-empty run of word characters |
| Summarizer.Counted | utils/summarizer.py:89-90 | a token is counted when it is alphanumeric, not one of the 14 stopwords and longer than 2 characters |
| Summarizer.CountedTokens | utils/summarizer.py:83-90 | the tokens of the lower-cased sentence that are alphanumeric, not a stopword and longer than 2 |
| Summarizer.AllCounted | utils/summarizer.py:78-92 | the counted tokens of the sentences, sentence after sentence |
| Summarizer.Frequencies | utils/summarizer.py:77-92 | the `Counter` after the loop: the multiset of all counted tokens of all sentences; `AllCountedMembers` and `WordFrequencies` state it |
| Summarizer.SumFreq | utils/summarizer.py:112 | `sum(word_freq[word] for word in words)` |
| Summarizer.Score | utils/summarizer.py:112 | the sum of the frequencies of a sentence's counted tokens; `ScoreBounds` states its bounds |
| Summarizer.SetScore | utils/summarizer.py:113 | `sentence_scores[sentence] = score` on the item sequence; `SetScoreTable` states it |
| Summarizer.ScoreTable | utils/summarizer.py:98-113 | the dict after the loop: each distinct sentence, in order of first occurrence, with its score; `SentenceScores` states it |
| Summarizer.TokensOfWord | utils/summarizer.py:83 | a single `\w` run is one token |
| Summarizer.TokensSplit | utils/summarizer.py:83 | a non-word character separates tokens: the tokens on its two sides are found independently |
| Summarizer.AllCountedMembers | utils/summarizer.py:77-92 | only counted tokens (alphanumeric, not a stopword, longer than 2) are in the counter, and every counted token of every sentence is |
| Summarizer.AllCountedEmpty | utils/summarizer.py:92-95 | the counter is empty exactly when no sentence has a counted token |
| Summarizer.WordFrequencies | utils/summarizer.py:77-92 | the frequency loop builds the multiset of all counted tokens of all sentences |
| Summarizer.SumFreqBounds | utils/summarizer.py:112 | a sum of frequencies over tokens in the counter is at least their number |
| Summarizer.ScoreBounds | utils/summarizer.py:99-113 | a sentence scores at least its number of counted tokens, and 0 exactly when it has none |
| Summarizer.KeyIndex | utils/summarizer.py:113 | a dict key found in the items is at the position returned, and a key not found is in no item |
| Summarizer.SetScoreTable | utils/summarizer.py:113 | assigning a score adds a new sentence at the end and keeps an existing one in its place |
| Summarizer.SentenceScores | utils/summarizer.py:98-113 | the scoring loop builds one entry per distinct sentence, in order of first occurrence, each with its score |
| Summarizer.PyPrefix | utils/summarizer.py:117 | `[:k]` is a prefix of length `min(k, n)`, or `max(n + k, 0)` for a negative `k` |
| Sorting.SortBy | utils/summarizer.py:116-121 | `sorted(s, key=key)` as an insertion sort; `SortByFacts` and `SortByStable` state it |
| Sorting.LeadUpTo | utils/summarizer.py:116-121 | the insertion point has every key before it at most the inserted key and the next key above it |
| Sorting.InsertByFacts | utils/summarizer.py:116-121 | inserting into a sorted sequence keeps it sorted and adds exactly the element |
| Sorting.SortByFacts | utils/summarizer.py:116-121 | `sorted` returns a permutation of its input ordered by key |
| Sorting.SortByStable | utils/summarizer.py:116-121 | on input without duplicate elements: among elements with equal keys, the one earlier in the input comes first |
| Sorting.InsertKeepsOrder | utils/summarizer.py:116-121 | one insertion step keeps the input order among equal keys |
| Summarizer.ByScore | utils/summarizer.py:116-117 | the sort key of the ranking: the negated score, so an ascending stable sort ranks the highest score first and keeps ties in order, as `reverse=True` does |
| Summarizer.ByFirstIndex | utils/summarizer.py:120-121 | the sort key `sentences.index(sentence)` |
| Summarizer.Ranked | utils/summarizer.py:116-117 | the items sorted by score, highest first; `RankedMembers` and `RankedOrder` state it |
| Summarizer.Selected | utils/summarizer.py:116-117 | the first `max_sentences` of them; `SelectedMembers` and `SelectedBest` state it |
| Summarizer.Ordered | utils/summarizer.py:120-121 | the selection sorted by first index in the sentence list; `OrderedPair` and `OrderedFacts` state it |
| Summarizer.RankedMembers | utils/summarizer.py:116-117 | the ranking holds each distinct sentence once, with its score |
| Summarizer.RankedOrder | utils/summarizer.py:116-117 | scores do not increase along the ranking, and equal scores keep the transcript order |
| Summarizer.SelectedMembers | utils/summarizer.py:116-117 | the selection is a prefix of the ranking with at most `max_sentences` entries, no sentence twice, each a sentence of the transcript |
| Summarizer.SelectedBest | utils/summarizer.py:116-117 | every selected score is at least every unselected score; on a tie the selected sentence occurs earlier in the transcript |
| Summarizer.OrderedPair | utils/summarizer.py:120-121 | any two selected sentences come back in the order of their first index in the sentence list |
| Summarizer.OrderedFacts | utils/summarizer.py:120-121 | the selection comes back complete, in transcript order, each sentence once |
| Summarizer.PermutedTextsDistinct | utils/summarizer.py:120-121 | reordering the selection repeats no sentence |
| Summarizer.SelectionEmpty | utils/summarizer.py:116-121 | the selection is empty exactly when `max_sentences` is 0, or negative and dropping at least every distinct sentence |
| Summarizer.JoinedSummary | utils/summarizer.py:124-126 | a non-empty selection joins to non-empty text with no whitespace at the ends |
| Summarizer.Precheck | utils/summarizer.py:49-95 | the early checks: one of their failures, the collapsed text itself, or the sentences to rank; the outcome lemmas below state each case |
| Summarizer.SummaryOf | utils/summarizer.py:39-132 | what `summarize_text` returns on its fallback path; `FinalOutcome` states it |
| Summarizer.EmptyOutcome | utils/summarizer.py:49-52 | the empty-transcript failure happens exactly when the collapsed and stripped text is empty |
| Summarizer.NoSentencesOutcome | utils/summarizer.py:59-62 | the no-sentence failure happens exactly when the text is not empty but splits into no non-empty sentence |
| Summarizer.ShortOutcome | utils/summarizer.py:64-65 | with at least one and at most `max_sentences` sentences the collapsed text itself is returned |
| Summarizer.NoWordsOutcome | utils/summarizer.py:94-95 | the no-meaningful-words failure happens exactly when there are more than `max_sentences` sentences and none has a counted token |
| Summarizer.RankedPath | utils/summarizer.py:49-95 | ranking is reached exactly when the text is not empty, has more than `max_sentences` sentences and the counter is not empty |
| Summarizer.RankedSentences | utils/summarizer.py:59-65 | the sentences ranked are the split of the collapsed text: at least one, each non-empty and trimmed |
| Summarizer.RankedSummary | utils/summarizer.py:124-129 | the ranking stage either fails to generate a summary or returns text that is not empty after stripping |
| Summarizer.RankedOutcome | utils/summarizer.py:116-129 | the ranked summary is the ordered selection joined with spaces, and it fails exactly when `max_sentences` is 0, or negative and dropping every distinct sentence |
| Summarizer.FinalOutcome | utils/summarizer.py:49-129 | every outcome of the early checks is the result; past them the result fails exactly when the selection is empty and otherwise is the ordered selection joined with spaces |
| Summarizer.RankSentences | utils/summarizer.py:115-129 | the ranking steps return exactly the ranked-stage outcome of the specification |
| Summarizer.SummarizeText | utils/summarizer.py:39-132 | the method returns exactly `SummaryOf(transcript, maxSentences)`, whose outcomes the lemmas above characterise |

## Left out

- The acquisition strategies (`get_transcript_ytdlp`, `get_transcript_direct_api`,
  the HTTP fetch and page scan of `get_transcript_web_scraping`) and
  `test_video_accessibility` use the network, yt-dlp and an XML parser. The
  fallback loop takes their outcomes as a sequence of `Attempt`s of any length.
  The scraping filter takes the already-found "text" values as its input.
- `parse_vtt_content` is modelled, but its callers' HTTP download is not.
- NLTK (`ensure_nltk_data`, `sent_tokenize`, `word_tokenize`, the stopword corpus,
  `WordNetLemmatizer`) is a foreign library with downloaded data. Only the built-in
  fallback path of `summarize_text` is modelled, and line 45 is taken to succeed,
  so the "NLTK data not available" outcome is not modelled.
- `summarize_with_api` (an HTTP call with environment configuration) and `app.py`
  (the Streamlit interface and file export) are not part of this model.
- `print` logging is left out.
- The exception branches that return "Unexpected error", "VTT parsing error",
  "Summarization error" and the strategy's own "error" messages are left out:
  on strings and integers none of the modelled statements raise. An exception
  raised by a strategy is modelled as the `Raised` attempt.
- `\s`, `\w`, `isdigit`, `isalnum` and `lower()` are modelled over ASCII. Python's
  Unicode categories are not modelled.
- `max_sentences` has no default value here: callers pass it, and the source's
  default is 10.
- The dict `sentence_scores` is modelled by its item sequence, and the `Counter`
  by a multiset. Lookup cost is not modelled.

=== FILE: cleaner.dfy ===
/** clean_transcript (utils/youtube_utils.py): removal of markup tags, the
    timestamp pass that follows it, case-insensitive removal of a word that
    repeats the word before it, removal of repeated sentences, and tidying of
    whitespace and dots. The regular expressions are written out as functions;
    the two loops are the loops of CleanTranscript. */
module Cleaner {
  import opened Text

  // ---------------------------------------------------------------------------
  // re.sub(r'<[^>]+>', '', s)

  /** If s opens with a match of `<[^>]+>`, the index of the '>' closing it. */
  function TagEnd(s: string): (k: Option<nat>)
    ensures k.Some? ==> 2 <= k.value < |s| && s[0] == '<' && s[k.value] == '>' && '>' !in s[1..k.value]
    ensures k.None? && s != [] && s[0] == '<' ==> (|s| > 1 && s[1] == '>') || '>' !in s[1..]
  {
    if s != [] && s[0] == '<' then
      match FirstIndexOf(s[1..], '>')
      case Some(j) => if j >= 1 then Some(j + 1) else None
      case None => None
    else None
  }

  /** Every match of `<[^>]+>`, scanning left to right, deleted. */
  function StripTags(s: string): string
    decreases |s|
  {
    if s == [] then []
    else match TagEnd(s)
      case Some(k) => StripTags(s[k + 1..])
      case None => [s[0]] + StripTags(s[1..])
  }

  /** No substring of s is '<', then one or more characters other than '>', then '>'. */
  predicate TagFree(s: string) {
    forall i, j :: 0 <= i && i + 1 < j < |s| && s[i] == '<' && s[j] == '>' ==> '>' in s[i + 1..j]
  }

  lemma {:induction false} StripTagsChars(s: string, c: char)
    ensures c in StripTags(s) ==> c in s
    decreases |s|
  {
    if s != [] {
      match TagEnd(s)
      case Some(k) =>
        StripTagsChars(s[k + 1..], c);
        assert c in s[k + 1..] ==> c in s;
      case None =>
        StripTagsChars(s[1..], c);
        assert c in s[1..] ==> c in s;
    }
  }

  /** Tag removal leaves no tag behind. */
  lemma {:induction false} StripTagsTagFree(s: string)
    ensures TagFree(StripTags(s))
    decreases |s|
  {
    if s != [] {
      match TagEnd(s)
      case Some(k) =>
        StripTagsTagFree(s[k + 1..]);
      case None =>
        StripTagsTagFree(s[1..]);
        var rest := StripTags(s[1..]);
        if s[0] == '<' && '>' in rest {
          StripTagsChars(s[1..], '>');
          assert s[1..][0] == s[1];
          assert TagEnd(s[1..]).None?;
        }
        ConsTagFree(s[0], rest);
    }
  }

  /** A character put in front of tag-free text keeps it tag-free unless it
      opens a tag: '<' is safe only when no '>' follows or one follows at once. */
  lemma ConsTagFree(c: char, rest: string)
    requires TagFree(rest)
    requires c == '<' && '>' in rest ==> rest[0] == '>'
    ensures TagFree([c] + rest)
  {
    var r := [c] + rest;
    forall i, j | 0 <= i && i + 1 < j < |r| && r[i] == '<' && r[j] == '>'
      ensures '>' in r[i + 1..j]
    {
      if i == 0 {
        assert rest[j - 1] in rest;
        assert r[i + 1..j][0] == '>';
      } else {
        assert r[i + 1..j] == rest[i..j - 1];
      }
    }
  }

  // ---------------------------------------------------------------------------
  // re.sub(r'<\d{2}:\d{2}:\d{2}\.\d+>', '', s)

  /** If s opens with a match of `<\d{2}:\d{2}:\d{2}\.\d+>`, the index of its '>'. */
  function TimestampEnd(s: string): (k: Option<nat>)
    ensures k.Some? ==> 11 <= k.value < |s| && s[0] == '<' && s[k.value] == '>' && '>' !in s[1..k.value]
  {
    if |s| >= 12 && s[0] == '<' && IsDigit(s[1]) && IsDigit(s[2]) && s[3] == ':'
       && IsDigit(s[4]) && IsDigit(s[5]) && s[6] == ':' && IsDigit(s[7]) && IsDigit(s[8])
       && s[9] == '.' && IsDigit(s[10])
    then
      var n := DigitRunLen(s[10..]);
      if 10 + n < |s| && s[10 + n] == '>' then
        assert forall i :: 10 <= i < 10 + n ==> s[i] == s[10..][i - 10];
        assert forall i :: 1 <= i < 10 + n ==> s[i] != '>';
        Some(10 + n)
      else None
    else None
  }

  /** Every match of the timestamp pattern, scanning left to right, deleted. */
  function StripTimestamps(s: string): string
    decreases |s|
  {
    if s == [] then []
    else match TimestampEnd(s)
      case Some(k) => StripTimestamps(s[k + 1..])
      case None => [s[0]] + StripTimestamps(s[1..])
  }

  /** Every timestamp is a tag, so the timestamp pass changes nothing once the
      tag pass has run: line 17 of clean_transcript never matches. */
  lemma {:induction false} TimestampPassIsIdentity(s: string)
    requires TagFree(s)
    ensures StripTimestamps(s) == s
    decreases |s|
  {
    if s != [] {
      if TimestampEnd(s).Some? {
        assert false;
      }
      assert TagFree(s[1..]) by {
        forall i, j | 0 <= i && i + 1 < j < |s[1..]| && s[1..][i] == '<' && s[1..][j] == '>'
          ensures '>' in s[1..][i + 1..j]
        {
          assert s[1..][i + 1..j] == s[i + 2..j + 1];
        }
      }
      TimestampPassIsIdentity(s[1..]);
    }
  }

  lemma TimestampPassAfterTags(s: string)
    ensures StripTimestamps(StripTags(s)) == StripTags(s)
  {
    StripTagsTagFree(s);
    TimestampPassIsIdentity(StripTags(s));
  }

  // ---------------------------------------------------------------------------
  // The word loop

  /** Whether the loop keeps words[i]: the first word, and every word that
      differs, ignoring case, from the word before it in the input. */
  predicate KeepsWord(words: seq<string>, i: nat)
    requires i < |words|
  {
    i == 0 || Lower(words[i]) != Lower(words[i - 1])
  }

  /** cleaned_words once the loop has seen words. */
  function DedupWords(words: seq<string>): (r: seq<string>)
    ensures |r| <= |words|
  {
    if words == [] then []
    else
      var n := |words| - 1;
      DedupWords(words[..n]) + (if KeepsWord(words, n) then [words[n]] else [])
  }

  /** The kept words are a subsequence of the input that begins with its first word. */
  lemma {:induction false} DedupWordsSubsequence(words: seq<string>)
    ensures IsSubsequence(DedupWords(words), words)
    ensures words != [] ==> DedupWords(words) != [] && DedupWords(words)[0] == words[0]
    decreases |words|
  {
    if words != [] {
      var n := |words| - 1;
      var p := words[..n];
      assert words == p + [words[n]];
      DedupWordsSubsequence(p);
      if KeepsWord(words, n) {
        SubsequenceExtendBoth(DedupWords(p), p, words[n]);
      } else {
        assert DedupWords(words) == DedupWords(p);
        SubsequenceExtend(DedupWords(p), p, words[n]);
      }
    }
  }

  /** The last kept word equals the last input word ignoring case. */
  lemma {:induction false} DedupWordsLast(words: seq<string>)
    ensures words != [] ==>
      DedupWords(words) != [] && Lower(DedupWords(words)[|DedupWords(words)| - 1]) == Lower(words[|words| - 1])
    decreases |words|
  {
    if words != [] {
      var n := |words| - 1;
      var p := words[..n];
      DedupWordsLast(p);
      if !KeepsWord(words, n) {
        assert DedupWords(words) == DedupWords(p);
        assert words[n - 1] == p[n - 1];
      }
    }
  }

  /** No two neighbouring kept words are equal ignoring case. */
  lemma {:induction false} DedupWordsNoRepeats(words: seq<string>)
    ensures forall i :: 0 < i < |DedupWords(words)| ==> Lower(DedupWords(words)[i - 1]) != Lower(DedupWords(words)[i])
    decreases |words|
  {
    if words != [] {
      var n := |words| - 1;
      var p := words[..n];
      DedupWordsNoRepeats(p);
      DedupWordsLast(p);
      var u := DedupWords(p);
      var r := DedupWords(words);
      assert forall j :: 0 <= j < |u| ==> r[j] == u[j];
      if KeepsWord(words, n) && n > 0 {
        assert words[n - 1] == p[n - 1];
      }
    }
  }

  /** Every input word survives ignoring case: only case-insensitive repeats
      are dropped. */
  lemma {:induction false} DedupWordsCovers(words: seq<string>)
    ensures forall i :: 0 <= i < |words| ==> exists j :: 0 <= j < |DedupWords(words)| && Lower(DedupWords(words)[j]) == Lower(words[i])
    decreases |words|
  {
    if words != [] {
      var n := |words| - 1;
      var p := words[..n];
      DedupWordsCovers(p);
      DedupWordsLast(words);
      var u := DedupWords(p);
      var r := DedupWords(words);
      assert forall j :: 0 <= j < |u| ==> r[j] == u[j];
      forall i | 0 <= i < |words| ensures exists j :: 0 <= j < |r| && Lower(r[j]) == Lower(words[i]) {
        if i < n {
          var j :| 0 <= j < |u| && Lower(u[j]) == Lower(p[i]);
          assert Lower(r[j]) == Lower(words[i]);
        } else {
          assert Lower(r[|r| - 1]) == Lower(words[i]);
        }
      }
    }
  }

  // ---------------------------------------------------------------------------
  // The whole pass

  /** The words left after tag removal, the timestamp pass and the word loop. */
  function KeptWords(transcript: string): seq<string> {
    DedupWords(SplitWords(StripTimestamps(StripTags(transcript))))
  }

  /** unique_sentences: the trimmed non-empty pieces of text between runs of
      '.', '!' and '?', each once, in order of first occurrence. */
  function UniqueSentences(text: string): seq<string> {
    FirstOccurrences(NonEmptyStripped(SplitSentences(text)))
  }

  /** The last three lines of clean_transcript: join with ". ", collapse
      whitespace, strip, squeeze dots. */
  function JoinSentences(unique: seq<string>): string {
    SqueezeDots(Strip(CollapseSpaces(Join(unique, ". "))))
  }

  /** What clean_transcript returns. */
  function Cleaned(transcript: string): string {
    if transcript == [] then transcript
    else JoinSentences(UniqueSentences(Strip(CollapseSpaces(Join(KeptWords(transcript), " ")))))
  }

  /** Sentence deduplication yields trimmed, non-empty, pairwise distinct pieces
      free of '.', '!' and '?', every non-empty trimmed piece of the text, in
      order of first occurrence. */
  lemma UniqueSentencesFacts(text: string)
    ensures var u := UniqueSentences(text);
      && (forall i :: 0 <= i < |u| ==> u[i] != [] && Trimmed(u[i]) && Avoids(u[i], Terminators))
      && (forall i, j :: 0 <= i < j < |u| ==> u[i] != u[j])
      && (forall x :: x in u <==> x in NonEmptyStripped(SplitSentences(text)))
      && (forall i, j :: 0 <= i < j < |u| ==>
            IndexIn(NonEmptyStripped(SplitSentences(text)), u[i]) < IndexIn(NonEmptyStripped(SplitSentences(text)), u[j]))
  {
    var ns := NonEmptyStripped(SplitSentences(text));
    NonEmptyStrippedAvoids(SplitSentences(text), Terminators);
    FirstOccurrencesMembers(ns);
    FirstOccurrencesDistinct(ns);
    FirstOccurrencesOrder(ns);
    var u := FirstOccurrences(ns);
    forall i | 0 <= i < |u| ensures u[i] != [] && Trimmed(u[i]) && Avoids(u[i], Terminators) {
      assert u[i] in ns;
    }
  }

  /** Joining such sentences gives text with no '!' or '?', no "..", no
      whitespace at either end or in a row, and no trailing '.'. */
  lemma JoinSentencesShape(unique: seq<string>)
    requires forall i :: 0 <= i < |unique| ==> unique[i] != [] && Trimmed(unique[i]) && Avoids(unique[i], Terminators)
    ensures var r := JoinSentences(unique);
      Avoids(r, {'!', '?'}) && NoDotRun(r) && Trimmed(r) && NoSpaceRun(r) && (r == [] || r[|r| - 1] != '.')
  {
    var d := Join(unique, ". ");
    forall i | 0 <= i < |unique| ensures Avoids(unique[i], {'!', '?'}) {
      assert Avoids(unique[i], Terminators);
    }
    JoinAvoids(unique, ". ", {'!', '?'});
    var c := CollapseSpaces(d);
    CollapseSpacesAvoids(d, {'!', '?'});
    if unique != [] {
      JoinEnds(unique, ". ");
      var last := unique[|unique| - 1];
      assert last[|last| - 1] !in Terminators;
      assert Trimmed(c);
    }
    StripOfTrimmed(c);
    SqueezeDotsAvoids(c, {'!', '?'});
    SqueezeDotsNoSpaceRun(c);
  }

  /** A non-empty transcript cleans to text with no '!' or '?', no "..", no
      whitespace at either end, no two whitespace characters in a row, and no
      trailing '.'; the empty transcript is returned as it is. */
  lemma CleanedShape(transcript: string)
    ensures transcript == [] ==> Cleaned(transcript) == transcript
    ensures var r := Cleaned(transcript);
      Avoids(r, {'!', '?'}) && NoDotRun(r) && Trimmed(r) && NoSpaceRun(r) && (r == [] || r[|r| - 1] != '.')
  {
    if transcript != [] {
      var joined := Strip(CollapseSpaces(Join(KeptWords(transcript), " ")));
      UniqueSentencesFacts(joined);
      JoinSentencesShape(UniqueSentences(joined));
    }
  }

  /** The word loop of clean_transcript (lines 20-26): a word is skipped when it
      equals the word before it in the input, ignoring case. */
  method DropRepeatedWords(words: seq<string>) returns (cleanedWords: seq<string>)
    ensures cleanedWords == DedupWords(words)
  {
    cleanedWords := [];
    for i := 0 to |words|
      invariant cleanedWords == DedupWords(words[..i])
    {
      assert words[..i + 1][..i] == words[..i];
      if i > 0 && Lower(words[i]) == Lower(words[i - 1]) {
        continue;
      }
      cleanedWords := cleanedWords + [words[i]];
    }
    assert words[..|words|] == words;
  }

  /** The sentence loop of clean_transcript (lines 35-39): a trimmed piece is
      appended unless it is empty or already present. */
  method DropRepeatedSentences(sentences: seq<string>) returns (unique: seq<string>)
    ensures unique == FirstOccurrences(NonEmptyStripped(sentences))
  {
    unique := [];
    for i := 0 to |sentences|
      invariant unique == FirstOccurrences(NonEmptyStripped(sentences[..i]))
    {
      SentenceStep(sentences, i);
      var sentence := Strip(sentences[i]);
      if sentence != [] && sentence !in unique {
        unique := unique + [sentence];
      }
    }
    assert sentences[..|sentences|] == sentences;
  }

  /** One pass of the sentence loop. */
  lemma SentenceStep(sentences: seq<string>, i: nat)
    requires i < |sentences|
    ensures var u, s := FirstOccurrences(NonEmptyStripped(sentences[..i])), Strip(sentences[i]);
      FirstOccurrences(NonEmptyStripped(sentences[..i + 1])) == if s != [] && s !in u then u + [s] else u
  {
    PrefixSnoc(sentences, i);
    NonEmptyStrippedSnoc(sentences[..i], sentences[i]);
    var before := NonEmptyStripped(sentences[..i]);
    var s := Strip(sentences[i]);
    if s == [] {
      assert NonEmptyStripped(sentences[..i + 1]) == before + [];
      assert before + [] == before;
    } else {
      FirstOccurrencesSnoc(before, s);
    }
  }

  /** clean_transcript. */
  method CleanTranscript(transcript: string) returns (r: string)
    ensures r == Cleaned(transcript)
  {
    if transcript == [] {
      return transcript;
    }
    var text := StripTags(transcript);
    text := StripTimestamps(text);
    var cleanedWords := DropRepeatedWords(SplitWords(text));
    var cleaned := Strip(CollapseSpaces(Join(cleanedWords, " ")));
    var unique := DropRepeatedSentences(SplitSentences(cleaned));
    var finalTranscript := Join(unique, ". ");
    finalTranscript := Strip(CollapseSpaces(finalTranscript));
    finalTranscript := SqueezeDots(finalTranscript);
    r := finalTranscript;
  }
}

=== FILE: fetcher.dfy ===
/** get_transcript (utils/youtube_utils.py): the video ID check and the
    ordered fallback over the transcript strategies, and the fragment filter of
    the web scraping strategy. The strategies themselves talk to the network;
    here each one is replaced by the outcome it produced. */
module Fetcher {
  import opened Text
  import opened Cleaner

  const FailureMark := "❌"
  const InvalidUrl := "❌ Invalid YouTube URL format. Please use a valid YouTube URL."
  const InvalidId := "❌ Invalid video ID extracted from URL."
  const AllFailed := "❌ All transcript methods failed. This video may not have accessible transcripts."

  /** The accepted URL shapes, in the order they are tried, each with the
      character that ends the ID. */
  const WatchMarker := "v="
  const ShortMarker := "youtu.be/"
  const EmbedMarker := "youtube.com/embed/"

  predicate HasMarker(url: string) {
    Contains(url, WatchMarker) || Contains(url, ShortMarker) || Contains(url, EmbedMarker)
  }

  /** url.split(marker)[1].split(cut)[0] */
  function IdAfter(url: string, marker: string, cut: char): string
    requires Contains(url, marker)
  {
    Before(Between(url, marker), [cut])
  }

  /** The video ID the URL yields (lines 53-64), or None for the
      invalid-URL branch. */
  function VideoId(videoUrl: string): (r: Option<string>)
    ensures r.None? <==> !HasMarker(Strip(videoUrl))
  {
    var url := Strip(videoUrl);
    if Contains(url, WatchMarker) then Some(IdAfter(url, WatchMarker, '&'))
    else if Contains(url, ShortMarker) then Some(IdAfter(url, ShortMarker, '?'))
    else if Contains(url, EmbedMarker) then Some(IdAfter(url, EmbedMarker, '?'))
    else None
  }

  /** id is what follows the first occurrence of marker in url, up to the end,
      the next occurrence of marker or the first cut character, whichever comes
      first. */
  predicate IsIdAfter(url: string, marker: string, cut: char, id: string)
    requires Contains(url, marker)
  {
    var rest := url[Find(url, marker).value + |marker|..];
    && id <= rest
    && cut !in id
    && (forall k :: 0 <= k < |id| ==> !(marker <= rest[k..]))
    && (|id| == |rest| || rest[|id|] == cut || marker <= rest[|id|..])
  }

  lemma IdAfterShape(url: string, marker: string, cut: char)
    requires Contains(url, marker)
    ensures IsIdAfter(url, marker, cut, IdAfter(url, marker, cut))
  {
    var rest := url[Find(url, marker).value + |marker|..];
    var piece := Before(rest, marker);
    var id := Before(piece, [cut]);
    BeforeChar(piece, cut);
    forall k | 0 <= k < |id|
      ensures !(marker <= rest[k..])
    {
    }
    if |id| < |piece| {
      assert rest[|id|] == piece[|id|];
    }
  }

  /** The marker that decides is the first of "v=", "youtu.be/" and
      "youtube.com/embed/" that the stripped URL contains. */
  lemma VideoIdShape(videoUrl: string)
    ensures var url := Strip(videoUrl);
      Contains(url, WatchMarker) ==>
        VideoId(videoUrl).Some? && IsIdAfter(url, WatchMarker, '&', VideoId(videoUrl).value)
    ensures var url := Strip(videoUrl);
      !Contains(url, WatchMarker) && Contains(url, ShortMarker) ==>
        VideoId(videoUrl).Some? && IsIdAfter(url, ShortMarker, '?', VideoId(videoUrl).value)
    ensures var url := Strip(videoUrl);
      !Contains(url, WatchMarker) && !Contains(url, ShortMarker) && Contains(url, EmbedMarker) ==>
        VideoId(videoUrl).Some? && IsIdAfter(url, EmbedMarker, '?', VideoId(videoUrl).value)
  {
    var url := Strip(videoUrl);
    if Contains(url, WatchMarker) {
      IdAfterShape(url, WatchMarker, '&');
    } else if Contains(url, ShortMarker) {
      IdAfterShape(url, ShortMarker, '?');
    } else if Contains(url, EmbedMarker) {
      IdAfterShape(url, EmbedMarker, '?');
    }
  }

  /** What one strategy did: returned a string, or raised. */
  datatype Attempt = Returned(text: string) | Raised

  /** Line 85: a strategy succeeded when it returned a string that does not
      start with the failure mark, even an empty one. */
  predicate Succeeded(a: Attempt) {
    a.Returned? && !StartsWith(a.text, FailureMark)
  }

  /** The index of the first successful strategy. */
  function FirstSuccess(attempts: seq<Attempt>): (r: Option<nat>)
    ensures r.Some? ==> r.value < |attempts| && Succeeded(attempts[r.value])
    ensures r.Some? ==> forall j :: 0 <= j < r.value ==> !Succeeded(attempts[j])
    ensures r.None? <==> forall j :: 0 <= j < |attempts| ==> !Succeeded(attempts[j])
  {
    if attempts == [] then None
    else if Succeeded(attempts[0]) then Some(0)
    else match FirstSuccess(attempts[1..])
      case Some(j) => Some(j + 1)
      case None => None
  }

  /** What get_transcript returns, and how many strategies it called. */
  datatype Fetch = Fetch(result: string, calls: nat)

  /** The fallback loop of lines 81-97 on its own. */
  function Fallback(attempts: seq<Attempt>): (f: Fetch)
    ensures f.calls <= |attempts|
  {
    match FirstSuccess(attempts)
    case Some(i) => Fetch(Cleaned(attempts[i].text), i + 1)
    case None => Fetch(AllFailed, |attempts|)
  }

  function Transcript(videoUrl: string, attempts: seq<Attempt>): (f: Fetch)
    ensures f.calls <= |attempts|
  {
    match VideoId(videoUrl)
    case None => Fetch(InvalidUrl, 0)
    case Some(id) => if |id| != 11 then Fetch(InvalidId, 0) else Fallback(attempts)
  }

  /** get_transcript: attempts[i] is what the i-th strategy of lines 75-79
      does when called. The strategies are called in order until one
      succeeds; calls counts the strategies called. */
  method GetTranscript(videoUrl: string, attempts: seq<Attempt>) returns (r: string, calls: nat)
    ensures Fetch(r, calls) == Transcript(videoUrl, attempts)
  {
    var videoId := VideoId(videoUrl);
    if videoId.None? {
      return InvalidUrl, 0;
    }
    if |videoId.value| != 11 {
      return InvalidId, 0;
    }
    r, calls := TryStrategies(attempts);
  }

  /** The loop of lines 81-97: call the strategies in order, return the first
      successful result cleaned, and skip failures and exceptions. */
  method TryStrategies(attempts: seq<Attempt>) returns (r: string, calls: nat)
    ensures Fetch(r, calls) == Fallback(attempts)
  {
    calls := 0;
    while calls < |attempts|
      invariant calls <= |attempts|
      invariant forall j :: 0 <= j < calls ==> !Succeeded(attempts[j])
    {
      var result := attempts[calls];
      calls := calls + 1;
      if result.Returned? && !StartsWith(result.text, FailureMark) {
        assert FirstSuccess(attempts) == Some(calls - 1);
        r := CleanTranscript(result.text);
        return;
      }
    }
    assert FirstSuccess(attempts).None?;
    r := AllFailed;
  }

  /** Lines 59-70 run before any strategy: an URL with no known marker or an
      ID that is not 11 characters long calls nothing. */
  lemma RejectedUrlCallsNothing(videoUrl: string, attempts: seq<Attempt>)
    ensures !HasMarker(Strip(videoUrl)) ==> Transcript(videoUrl, attempts) == Fetch(InvalidUrl, 0)
    ensures HasMarker(Strip(videoUrl)) && |VideoId(videoUrl).value| != 11 ==>
      Transcript(videoUrl, attempts) == Fetch(InvalidId, 0)
    ensures Transcript(videoUrl, attempts).calls > 0 ==>
      VideoId(videoUrl).Some? && |VideoId(videoUrl).value| == 11
  {
  }

  /** With a valid ID, the result is the cleaned text of the first strategy
      that succeeded, after calling exactly the strategies up to it, or the
      all-failed message after calling every strategy. */
  lemma FallbackOutcome(videoUrl: string, attempts: seq<Attempt>)
    requires VideoId(videoUrl).Some? && |VideoId(videoUrl).value| == 11
    ensures var f := Transcript(videoUrl, attempts);
      (forall j :: 0 <= j < f.calls - 1 ==> !Succeeded(attempts[j])) &&
      (f.result == AllFailed ==> f.calls == |attempts| && forall j :: 0 <= j < |attempts| ==> !Succeeded(attempts[j])) &&
      ((exists j :: 0 <= j < |attempts| && Succeeded(attempts[j])) ==>
        0 < f.calls && Succeeded(attempts[f.calls - 1]) && f.result == Cleaned(attempts[f.calls - 1].text))
    ensures (forall j :: 0 <= j < |attempts| ==> !Succeeded(attempts[j])) ==>
      Transcript(videoUrl, attempts) == Fetch(AllFailed, |attempts|)
  {
    assert Transcript(videoUrl, attempts) == Fallback(attempts);
    FallbackFacts(attempts);
  }

  lemma FallbackFacts(attempts: seq<Attempt>)
    ensures var f := Fallback(attempts);
      (forall j :: 0 <= j < f.calls - 1 ==> !Succeeded(attempts[j])) &&
      (f.result == AllFailed ==> f.calls == |attempts| && forall j :: 0 <= j < |attempts| ==> !Succeeded(attempts[j])) &&
      ((exists j :: 0 <= j < |attempts| && Succeeded(attempts[j])) ==>
        0 < f.calls && Succeeded(attempts[f.calls - 1]) && f.result == Cleaned(attempts[f.calls - 1].text))
    ensures (forall j :: 0 <= j < |attempts| ==> !Succeeded(attempts[j])) ==>
      Fallback(attempts) == Fetch(AllFailed, |attempts|)
  {
    match FirstSuccess(attempts)
    case Some(i) =>
      CleanedShape(attempts[i].text);
      assert AllFailed[|AllFailed| - 1] == '.';
    case None =>
  }

  /** Strategies after the one that succeeded are never called: whatever they
      would have done does not change the outcome. */
  lemma LaterStrategiesIrrelevant(videoUrl: string, attempts: seq<Attempt>, others: seq<Attempt>)
    requires |others| == |attempts|
    requires others[..Transcript(videoUrl, attempts).calls] == attempts[..Transcript(videoUrl, attempts).calls]
    ensures Transcript(videoUrl, others) == Transcript(videoUrl, attempts)
  {
    if VideoId(videoUrl).Some? && |VideoId(videoUrl).value| == 11 {
      FallbackPrefix(attempts, others);
    }
  }

  lemma FallbackPrefix(attempts: seq<Attempt>, others: seq<Attempt>)
    requires |others| == |attempts|
    requires others[..Fallback(attempts).calls] == attempts[..Fallback(attempts).calls]
    ensures Fallback(others) == Fallback(attempts)
  {
    var n := Fallback(attempts).calls;
    assert n <= |attempts|;
    forall j | 0 <= j < n
      ensures others[j] == attempts[j]
    {
      assert others[j] == others[..n][j];
    }
    match FirstSuccess(attempts)
    case Some(i) =>
      assert n == i + 1;
      FirstSuccessAt(others, i);
    case None =>
      assert others == attempts[..n];
  }

  /** A successful strategy preceded only by failures is the first success. */
  lemma FirstSuccessAt(attempts: seq<Attempt>, i: nat)
    requires i < |attempts| && Succeeded(attempts[i])
    requires forall j :: 0 <= j < i ==> !Succeeded(attempts[j])
    ensures FirstSuccess(attempts) == Some(i)
  {
  }

  /** A strategy that returns the empty string counts as a success: the result
      is the empty transcript and no later strategy is called. */
  lemma EmptyTextIsSuccess(videoUrl: string, attempts: seq<Attempt>)
    requires VideoId(videoUrl).Some? && |VideoId(videoUrl).value| == 11
    requires attempts != [] && attempts[0] == Returned("")
    ensures Transcript(videoUrl, attempts) == Fetch("", 1)
  {
    assert Succeeded(attempts[0]);
  }

  // ---------------------------------------------------------------------------
  // The fragment filter of the web scraping strategy (lines 245-247)

  /** A scraped "text" value is kept when it is longer than 10 characters and
      does not start with "http". */
  predicate IsTranscriptFragment(t: string) {
    |t| > 10 && !StartsWith(t, "http")
  }

  /** The list comprehension of line 245. */
  function ValidFragments(matches: seq<string>): seq<string> {
    Filter(matches, IsTranscriptFragment)
  }

  /** What the scraping strategy returns once it found "text" values (line
      247): the first 50 valid ones joined by spaces, or None when none is
      valid and the strategy goes on to its failure message. */
  function ScrapedText(matches: seq<string>): (r: Option<string>)
    ensures r.None? <==> forall i :: 0 <= i < |matches| ==> !IsTranscriptFragment(matches[i])
  {
    var valid := ValidFragments(matches);
    FilterEmpty(matches, IsTranscriptFragment);
    if valid == [] then None
    else Some(Join(valid[..if |valid| < 50 then |valid| else 50], " "))
  }

  /** The scraped text is the valid fragments, at most the first 50 of them,
      joined by single spaces; it is longer than 10 characters. */
  lemma ScrapedTextShape(matches: seq<string>)
    ensures var valid := ValidFragments(matches);
      ScrapedText(matches).Some? && |valid| <= 50 ==> ScrapedText(matches).value == Join(valid, " ")
    ensures var valid := ValidFragments(matches);
      ScrapedText(matches).Some? && |valid| > 50 ==> ScrapedText(matches).value == Join(valid[..50], " ")
    ensures ScrapedText(matches).Some? ==> |ScrapedText(matches).value| > 10
  {
    var valid := ValidFragments(matches);
    if ScrapedText(matches).Some? {
      var n := if |valid| < 50 then |valid| else 50;
      var parts := valid[..n];
      assert parts[0] <= Join(parts, " ");
      assert IsTranscriptFragment(parts[0]);
      assert valid[..|valid|] == valid;
    }
  }
}

=== FILE: sorting.dfy ===
/** Python's sorted(xs, key=k): a stable sort. A stable sort has exactly one
    possible result, so it is defined here as an insertion sort; the result is
    a permutation of the input, ordered by key, and elements with equal keys
    keep their input order. */
module Sorting {
  import opened Text

  predicate SortedBy<T>(s: seq<T>, key: T -> int) {
    forall i, j :: 0 <= i < j < |s| ==> key(s[i]) <= key(s[j])
  }

  /** The number of leading elements of s whose key is at most v. */
  function LeadUpTo<T>(s: seq<T>, v: int, key: T -> int): (m: nat)
    ensures m <= |s|
    ensures forall i :: 0 <= i < m ==> key(s[i]) <= v
    ensures m == |s| || key(s[m]) > v
  {
    if s == [] || key(s[0]) > v then 0 else 1 + LeadUpTo(s[1..], v, key)
  }

  /** Insert x after every element whose key is at most key(x). */
  function InsertBy<T>(s: seq<T>, x: T, key: T -> int): seq<T> {
    var m := LeadUpTo(s, key(x), key);
    s[..m] + [x] + s[m..]
  }

  function SortBy<T>(s: seq<T>, key: T -> int): seq<T> {
    if s == [] then [] else InsertBy(SortBy(s[..|s| - 1], key), s[|s| - 1], key)
  }

  lemma InsertByFacts<T>(s: seq<T>, x: T, key: T -> int)
    requires SortedBy(s, key)
    ensures multiset(InsertBy(s, x, key)) == multiset(s) + multiset{x}
    ensures SortedBy(InsertBy(s, x, key), key)
  {
    var m := LeadUpTo(s, key(x), key);
    assert s == s[..m] + s[m..];
    InsertBySorted(s, x, key);
  }

  lemma InsertBySorted<T>(s: seq<T>, x: T, key: T -> int)
    requires SortedBy(s, key)
    ensures SortedBy(InsertBy(s, x, key), key)
  {
    var m := LeadUpTo(s, key(x), key);
    var r := InsertBy(s, x, key);
    assert |r| == |s| + 1;
    assert forall i :: 0 <= i < m ==> r[i] == s[i];
    assert r[m] == x;
    assert forall i :: m < i < |r| ==> r[i] == s[i - 1];
    forall i, j | 0 <= i < j < |r|
      ensures key(r[i]) <= key(r[j])
    {
      if j < m || i > m {
      } else if i == m {
        assert key(s[j - 1]) >= key(s[m]);
      } else if j == m {
      } else {
        assert key(s[i]) <= key(s[j - 1]);
      }
    }
  }

  /** The sort returns a permutation of its input, ordered by key. */
  lemma {:induction false} SortByFacts<T>(s: seq<T>, key: T -> int)
    ensures |SortBy(s, key)| == |s|
    ensures multiset(SortBy(s, key)) == multiset(s)
    ensures SortedBy(SortBy(s, key), key)
    decreases |s|
  {
    if s != [] {
      var p := s[..|s| - 1];
      SortByFacts(p, key);
      InsertByFacts(SortBy(p, key), s[|s| - 1], key);
      assert s == p + [s[|s| - 1]];
    }
  }

  predicate Distinct<T(==)>(s: seq<T>) {
    forall i, j :: 0 <= i < j < |s| ==> s[i] != s[j]
  }

  /** Among elements of r with equal keys, the one earlier in s comes first. */
  predicate KeepsOrderOf<T(==)>(r: seq<T>, s: seq<T>, key: T -> int) {
    forall i, j :: 0 <= i < j < |r| && key(r[i]) == key(r[j]) ==>
      r[i] in s && r[j] in s && IndexIn(s, r[i]) < IndexIn(s, r[j])
  }

  lemma InsertKeepsOrder<T>(p: seq<T>, q: seq<T>, x: T, key: T -> int)
    requires x !in p
    requires multiset(q) == multiset(p) && SortedBy(q, key) && KeepsOrderOf(q, p, key)
    ensures KeepsOrderOf(InsertBy(q, x, key), p + [x], key)
  {
    var r := InsertBy(q, x, key);
    forall i, j | 0 <= i < j < |r| && key(r[i]) == key(r[j])
      ensures r[i] in p + [x] && r[j] in p + [x] && IndexIn(p + [x], r[i]) < IndexIn(p + [x], r[j])
    {
      InsertKeepsPair(p, q, x, key, i, j);
    }
  }

  lemma InsertKeepsPair<T>(p: seq<T>, q: seq<T>, x: T, key: T -> int, i: nat, j: nat)
    requires x !in p
    requires multiset(q) == multiset(p) && SortedBy(q, key) && KeepsOrderOf(q, p, key)
    requires i < j < |InsertBy(q, x, key)|
    requires key(InsertBy(q, x, key)[i]) == key(InsertBy(q, x, key)[j])
    ensures var r := InsertBy(q, x, key);
      r[i] in p + [x] && r[j] in p + [x] && IndexIn(p + [x], r[i]) < IndexIn(p + [x], r[j])
  {
    var m := LeadUpTo(q, key(x), key);
    var r := InsertBy(q, x, key);
    assert IndexIn(p + [x], x) == |p|;
    if j < m {
      assert r[i] == q[i] && r[j] == q[j];
      IndexInPrefix(p, [x], q[i]);
      IndexInPrefix(p, [x], q[j]);
    } else if i > m {
      assert r[i] == q[i - 1] && r[j] == q[j - 1];
      IndexInPrefix(p, [x], q[i - 1]);
      IndexInPrefix(p, [x], q[j - 1]);
    } else if i == m {
      assert false;
    } else if j == m {
      assert r[i] == q[i] && r[j] == x;
      assert q[i] in multiset(q);
      IndexInPrefix(p, [x], q[i]);
    } else {
      assert false;
    }
  }

  /** Stability: among elements of a duplicate-free input with equal keys, the
      one earlier in the input comes first. */
  lemma {:induction false} SortByStable<T>(s: seq<T>, key: T -> int)
    requires Distinct(s)
    ensures KeepsOrderOf(SortBy(s, key), s, key)
    decreases |s|
  {
    if s != [] {
      var n := |s| - 1;
      var p, x := s[..n], s[n];
      assert s == p + [x];
      SortByStable(p, key);
      SortByFacts(p, key);
      InsertKeepsOrder(p, SortBy(p, key), x, key);
    }
  }
}

=== FILE: summarizer.dfy ===
/** summarize_text (utils/summarizer.py): extractive summarization on the
    fallback path, where sentences come from a regular-expression split, words
    are \w runs of the lower-cased sentence and the stopwords are a fixed list
    of 14 words. Sentences are scored by the frequencies of their words, the
    best max_sentences of them are kept and put back in transcript order. */
module Summarizer {
  import opened Text
  import opened Sorting

  /** What summarize_text returns: a summary, or one of its failure messages. */
  datatype Outcome = Summary(text: string) | EmptyTranscript | NoSentences | NoMeaningfulWords | GenerationFailed
  {
    function Message(): string {
      match this
      case Summary(text) => text
      case EmptyTranscript => "❌ Empty transcript provided."
      case NoSentences => "❌ No valid sentences found in transcript."
      case NoMeaningfulWords => "❌ No meaningful words found for summarization."
      case GenerationFailed => "❌ Failed to generate summary."
    }
  }

  /** The fallback stopword set of line 73. */
  const Stopwords: set<string> :=
    {"the", "a", "an", "and", "or", "but", "in", "on", "at", "to", "for", "of", "with", "by"}

  // ---------------------------------------------------------------------------
  // Sentences and words

  /** The fallback sentence split of line 59. */
  function Sentences(text: string): seq<string> {
    NonEmptyStripped(SplitSentences(text))
  }

  /** A run of \w characters. */
  predicate IsWord(t: string) {
    t != [] && forall k :: 0 <= k < |t| ==> IsWordChar(t[k])
  }

  /** Length of the longest prefix of s made of \w characters. */
  function WordRunLen(s: string): (n: nat)
    ensures n <= |s|
    ensures forall i :: 0 <= i < n ==> IsWordChar(s[i])
    ensures n == |s| || !IsWordChar(s[n])
  {
    if s == [] || !IsWordChar(s[0]) then 0 else 1 + WordRunLen(s[1..])
  }

  /** re.findall(r'\b\w+\b', s): the maximal runs of \w characters, in order. */
  function Tokens(s: string): (r: seq<string>)
    ensures forall i :: 0 <= i < |r| ==> IsWord(r[i])
    decreases |s|
  {
    if s == [] then []
    else if !IsWordChar(s[0]) then Tokens(s[1..])
    else
      var n := WordRunLen(s);
      [s[..n]] + Tokens(s[n..])
  }

  /** A single \w run is one token. */
  lemma TokensOfWord(s: string)
    requires IsWord(s)
    ensures Tokens(s) == [s]
  {
    assert WordRunLen(s) == |s|;
    assert s[..|s|] == s;
    assert Tokens(s[|s|..]) == [];
  }

  /** A non-word character separates tokens: the tokens on its two sides are
      found independently. With TokensOfWord this makes the tokens exactly the
      maximal \w runs. */
  lemma {:induction false} TokensSplit(a: string, c: char, b: string)
    requires !IsWordChar(c)
    ensures Tokens(a + [c] + b) == Tokens(a) + Tokens(b)
    decreases |a|
  {
    var s := a + [c] + b;
    if a == [] {
      assert s[1..] == b;
    } else if !IsWordChar(a[0]) {
      assert s[1..] == a[1..] + [c] + b;
      TokensSplit(a[1..], c, b);
    } else {
      var n := WordRunLen(a);
      assert s[n] == (if n < |a| then a[n] else c);
      assert forall i :: 0 <= i < n ==> s[i] == a[i];
      assert WordRunLen(s) == n;
      assert s[..n] == a[..n];
      assert s[n..] == a[n..] + [c] + b;
      TokensSplit(a[n..], c, b);
    }
  }

  /** Line 90: a token counts when it is alphanumeric, not a stopword and
      longer than 2 characters. */
  predicate Counted(w: string) {
    IsAlnum(w) && w !in Stopwords && |w| > 2
  }

  /** The counted tokens of one sentence (lines 83 and 89-90). */
  function CountedTokens(sentence: string): seq<string> {
    Filter(Tokens(Lower(sentence)), Counted)
  }

  /** All counted tokens of the sentences, sentence after sentence. */
  function AllCounted(sentences: seq<string>): seq<string> {
    Flatten(sentences, CountedTokens)
  }

  /** word_freq after the loop of lines 78-92: a Counter is a multiset. */
  function Frequencies(sentences: seq<string>): multiset<string> {
    multiset(AllCounted(sentences))
  }

  /** Only counted tokens have a frequency, and every counted token of every
      sentence has one. */
  lemma AllCountedMembers(sentences: seq<string>)
    ensures forall w :: w in AllCounted(sentences) ==> Counted(w)
    ensures forall i, w :: 0 <= i < |sentences| && w in CountedTokens(sentences[i]) ==> w in AllCounted(sentences)
  {
    FlattenMembers(sentences, CountedTokens);
    forall w | w in AllCounted(sentences)
      ensures Counted(w)
    {
      var i :| 0 <= i < |sentences| && w in CountedTokens(sentences[i]);
      CountedTokenCounts(sentences[i], w);
    }
  }

  lemma CountedTokenCounts(sentence: string, w: string)
    requires w in CountedTokens(sentence)
    ensures Counted(w)
  {
    var ts := CountedTokens(sentence);
    var k :| 0 <= k < |ts| && ts[k] == w;
  }

  /** No word has a frequency exactly when no sentence has a counted token. */
  lemma AllCountedEmpty(sentences: seq<string>)
    ensures |Frequencies(sentences)| == 0 <==> forall i :: 0 <= i < |sentences| ==> CountedTokens(sentences[i]) == []
  {
    FlattenEmpty(sentences, CountedTokens);
  }

  // ---------------------------------------------------------------------------
  // Scores

  /** sum(word_freq[word] for word in words) */
  function SumFreq(words: seq<string>, freq: multiset<string>): nat {
    if words == [] then 0 else SumFreq(words[..|words| - 1], freq) + freq[words[|words| - 1]]
  }

  /** The score of line 112. */
  function Score(sentence: string, freq: multiset<string>): nat {
    SumFreq(CountedTokens(sentence), freq)
  }

  lemma {:induction false} SumFreqBounds(words: seq<string>, freq: multiset<string>)
    requires forall w :: w in words ==> w in freq
    ensures SumFreq(words, freq) >= |words|
    decreases |words|
  {
    if words != [] {
      SumFreqBounds(words[..|words| - 1], freq);
      assert words[|words| - 1] in words;
    }
  }

  /** Every counted token of a sentence occurs at least once, so a sentence
      scores at least its number of counted tokens, and 0 exactly when it has
      none. */
  lemma ScoreBounds(sentences: seq<string>, i: nat)
    requires i < |sentences|
    ensures var s := sentences[i];
      Score(s, Frequencies(sentences)) >= |CountedTokens(s)| &&
      (Score(s, Frequencies(sentences)) == 0 <==> CountedTokens(s) == [])
  {
    AllCountedMembers(sentences);
    forall w | w in CountedTokens(sentences[i])
      ensures w in Frequencies(sentences)
    {
      assert w in AllCounted(sentences);
    }
    SumFreqBounds(CountedTokens(sentences[i]), Frequencies(sentences));
  }

  /** One entry of the sentence_scores dict. */
  datatype Scored = Scored(sentence: string, score: nat)

  /** The position of key s in the dict's items. */
  function KeyIndex(items: seq<Scored>, s: string): (r: Option<nat>)
    ensures r.Some? ==> r.value < |items| && items[r.value].sentence == s
    ensures r.None? ==> forall i :: 0 <= i < |items| ==> items[i].sentence != s
  {
    if items == [] then None
    else if items[0].sentence == s then Some(0)
    else match KeyIndex(items[1..], s)
      case Some(j) => Some(j + 1)
      case None => None
  }

  /** sentence_scores[s] = v: a new key goes last, an existing key keeps its
      place and takes the new value. */
  function SetScore(items: seq<Scored>, s: string, v: nat): seq<Scored> {
    match KeyIndex(items, s)
    case Some(p) => items[p := Scored(s, v)]
    case None => items + [Scored(s, v)]
  }

  /** The items of sentence_scores: each distinct sentence, in order of first
      occurrence, with its score. */
  function ScoreTable(unique: seq<string>, freq: multiset<string>): seq<Scored> {
    seq(|unique|, i requires 0 <= i < |unique| => Scored(unique[i], Score(unique[i], freq)))
  }

  /** Assigning a sentence its score in the table of distinct sentences gives the
      table with that sentence added if it was not there, and the same table
      otherwise. */
  lemma SetScoreTable(unique: seq<string>, s: string, freq: multiset<string>)
    requires Distinct(unique)
    ensures SetScore(ScoreTable(unique, freq), s, Score(s, freq)) ==
      ScoreTable(if s in unique then unique else unique + [s], freq)
  {
    var t := ScoreTable(unique, freq);
    match KeyIndex(t, s)
    case Some(p) =>
      assert t[p] == Scored(s, Score(s, freq));
      assert t[p := Scored(s, Score(s, freq))] == t;
    case None =>
      assert s !in unique by {
        forall i | 0 <= i < |unique|
          ensures unique[i] != s
        {
          assert t[i].sentence == unique[i];
        }
      }
  }

  // ---------------------------------------------------------------------------
  // Selection

  /** The sort key of line 117: score, highest first. */
  function ByScore(x: Scored): int {
    -(x.score as int)
  }

  /** The sort key of line 121: sentences.index(sentence). */
  function ByFirstIndex(sentences: seq<string>): Scored -> int {
    (x: Scored) => if x.sentence in sentences then IndexIn(sentences, x.sentence) else |sentences|
  }

  /** Python's s[:k], where a negative k drops the last -k elements. */
  function PyPrefix<T>(s: seq<T>, k: int): (r: seq<T>)
    ensures r <= s
    ensures k >= 0 ==> |r| == if k < |s| then k else |s|
    ensures k < 0 ==> |r| == if |s| + k > 0 then |s| + k else 0
  {
    if k >= 0 then (if k < |s| then s[..k] else s)
    else (if |s| + k > 0 then s[..|s| + k] else [])
  }

  /** The dict items sorted by score, highest first (lines 116-117). */
  function Ranked(sentences: seq<string>, freq: multiset<string>): seq<Scored> {
    SortBy(ScoreTable(FirstOccurrences(sentences), freq), ByScore)
  }

  /** The first max_sentences of them. */
  function Selected(sentences: seq<string>, freq: multiset<string>, maxSentences: int): seq<Scored> {
    PyPrefix(Ranked(sentences, freq), maxSentences)
  }

  /** The selected sentences in transcript order (lines 120-121). */
  function Ordered(sentences: seq<string>, freq: multiset<string>, maxSentences: int): seq<Scored> {
    SortBy(Selected(sentences, freq, maxSentences), ByFirstIndex(sentences))
  }

  function Texts(items: seq<Scored>): seq<string> {
    seq(|items|, i requires 0 <= i < |items| => items[i].sentence)
  }

  /** Where summarize_text stands after the checks of lines 49-95: finished
      with an outcome, or about to rank these sentences. */
  datatype Stage = Done(outcome: Outcome) | Rank(sentences: seq<string>)

  /** The checks of lines 49-95. */
  function Precheck(transcript: string, maxSentences: int): Stage {
    var text := Strip(CollapseSpaces(transcript));
    if text == [] then Done(EmptyTranscript)
    else
      var sentences := Sentences(text);
      if |sentences| == 0 then Done(NoSentences)
      else if |sentences| <= maxSentences then Done(Summary(text))
      else if |Frequencies(sentences)| == 0 then Done(NoMeaningfulWords)
      else Rank(sentences)
  }

  /** What summarize_text returns on the fallback path. */
  function SummaryOf(transcript: string, maxSentences: int): Outcome {
    match Precheck(transcript, maxSentences)
    case Done(o) => o
    case Rank(sentences) => RankedSummary(sentences, maxSentences)
  }

  /** Lines 98-129, once there are more sentences than max_sentences and some
      counted word. */
  function RankedSummary(sentences: seq<string>, maxSentences: int): (r: Outcome)
    ensures r == GenerationFailed || (r.Summary? && Strip(r.text) != [])
  {
    var summary := Join(Texts(Ordered(sentences, Frequencies(sentences), maxSentences)), " ");
    if Strip(summary) == [] then GenerationFailed else Summary(summary)
  }

  /** Reordering entries with distinct sentences does not repeat a sentence. */
  lemma PermutedTextsDistinct(s: seq<Scored>, o: seq<Scored>)
    requires Distinct(Texts(s)) && multiset(o) == multiset(s)
    ensures Distinct(Texts(o))
  {
    forall i, j | 0 <= i < j < |o|
      ensures Texts(o)[i] != Texts(o)[j]
    {
      PermutedPairDistinct(s, o, i, j);
    }
  }

  lemma PermutedPairDistinct(s: seq<Scored>, o: seq<Scored>, i: nat, j: nat)
    requires Distinct(Texts(s)) && multiset(o) == multiset(s)
    requires i < j < |o|
    ensures o[i].sentence != o[j].sentence
  {
    if o[i].sentence == o[j].sentence {
      assert o[i] in multiset(s) && o[j] in multiset(s);
      var p :| 0 <= p < |s| && s[p] == o[i];
      var q :| 0 <= q < |s| && s[q] == o[j];
      assert Texts(s)[p] == Texts(s)[q];
      DistinctCounts(o, i, j);
      DistinctOnce(s, p);
      assert false;
    }
  }

  /** An element occurring at two positions occurs at least twice. */
  lemma DistinctCounts<T>(s: seq<T>, i: nat, j: nat)
    requires i < j < |s| && s[i] == s[j]
    ensures multiset(s)[s[i]] >= 2
  {
    assert s == s[..i] + [s[i]] + s[i + 1..j] + [s[j]] + s[j + 1..];
  }

  /** In a sequence with distinct sentences every entry occurs once. */
  lemma {:induction false} DistinctOnce(s: seq<Scored>, p: nat)
    requires Distinct(Texts(s)) && p < |s|
    ensures multiset(s)[s[p]] == 1
    decreases |s|
  {
    var n := |s| - 1;
    assert s == s[..n] + [s[n]];
    var x := s[p];
    if p == n {
      forall k | 0 <= k < n
        ensures s[k] != x
      {
        assert Texts(s)[k] != Texts(s)[n];
      }
      assert x !in s[..n];
    } else {
      assert Texts(s[..n]) == Texts(s)[..n];
      DistinctOnce(s[..n], p);
      assert Texts(s)[p] != Texts(s)[n];
    }
  }

  /** The ranking holds every distinct sentence once, with its score. */
  lemma RankedMembers(sentences: seq<string>, freq: multiset<string>)
    ensures multiset(Ranked(sentences, freq)) == multiset(ScoreTable(FirstOccurrences(sentences), freq))
    ensures |Ranked(sentences, freq)| == |FirstOccurrences(sentences)|
    ensures Distinct(Texts(Ranked(sentences, freq)))
    ensures forall x :: x in Ranked(sentences, freq) ==>
      x.sentence in sentences && x.score == Score(x.sentence, freq)
  {
    var unique := FirstOccurrences(sentences);
    var t := ScoreTable(unique, freq);
    var r := Ranked(sentences, freq);
    FirstOccurrencesDistinct(sentences);
    FirstOccurrencesMembers(sentences);
    SortByFacts(t, ByScore);
    assert Texts(t) == unique;
    PermutedTextsDistinct(t, r);
    forall x | x in r
      ensures x.sentence in sentences && x.score == Score(x.sentence, freq)
    {
      assert x in multiset(t);
      var p :| 0 <= p < |t| && t[p] == x;
      assert x.sentence == unique[p];
    }
  }

  /** Scores do not increase along the ranking, and among equal scores the
      sentence that occurs first in the transcript comes first. */
  lemma RankedOrder(sentences: seq<string>, freq: multiset<string>)
    ensures var r := Ranked(sentences, freq);
      forall i, j :: 0 <= i < j < |r| ==> r[i].score >= r[j].score
    ensures var r := Ranked(sentences, freq);
      forall i, j :: 0 <= i < j < |r| && r[i].score == r[j].score ==>
        r[i].sentence in sentences && r[j].sentence in sentences &&
        IndexIn(sentences, r[i].sentence) < IndexIn(sentences, r[j].sentence)
  {
    var r := Ranked(sentences, freq);
    SortByFacts(ScoreTable(FirstOccurrences(sentences), freq), ByScore);
    forall i, j | 0 <= i < j < |r|
      ensures r[i].score >= r[j].score
    {
      assert ByScore(r[i]) <= ByScore(r[j]);
    }
    forall i, j | 0 <= i < j < |r| && r[i].score == r[j].score
      ensures r[i].sentence in sentences && r[j].sentence in sentences &&
        IndexIn(sentences, r[i].sentence) < IndexIn(sentences, r[j].sentence)
    {
      RankedTie(sentences, freq, i, j);
    }
  }

  lemma RankedTie(sentences: seq<string>, freq: multiset<string>, i: nat, j: nat)
    requires i < j < |Ranked(sentences, freq)|
    requires Ranked(sentences, freq)[i].score == Ranked(sentences, freq)[j].score
    ensures var r := Ranked(sentences, freq);
      r[i].sentence in sentences && r[j].sentence in sentences &&
      IndexIn(sentences, r[i].sentence) < IndexIn(sentences, r[j].sentence)
  {
    var unique := FirstOccurrences(sentences);
    var t := ScoreTable(unique, freq);
    var r := Ranked(sentences, freq);
    FirstOccurrencesDistinct(sentences);
    FirstOccurrencesOrder(sentences);
    assert Distinct(t) by {
      forall a, b | 0 <= a < b < |t|
        ensures t[a] != t[b]
      {
        assert t[a].sentence == unique[a] && t[b].sentence == unique[b];
      }
    }
    SortByStable(t, ByScore);
    assert ByScore(r[i]) == ByScore(r[j]);
    var p, q := IndexIn(t, r[i]), IndexIn(t, r[j]);
    assert r[i].sentence == unique[p] && r[j].sentence == unique[q];
  }

  /** At most max_sentences sentences are selected, from the front of the
      ranking, none twice, each one of the transcript's sentences. */
  lemma SelectedMembers(sentences: seq<string>, freq: multiset<string>, maxSentences: int)
    ensures var s := Selected(sentences, freq, maxSentences);
      s <= Ranked(sentences, freq) && (maxSentences >= 0 ==> |s| <= maxSentences)
    ensures Distinct(Texts(Selected(sentences, freq, maxSentences)))
    ensures forall x :: x in Selected(sentences, freq, maxSentences) ==> x.sentence in sentences
  {
    var s, r := Selected(sentences, freq, maxSentences), Ranked(sentences, freq);
    RankedMembers(sentences, freq);
    assert Texts(s) == Texts(r)[..|s|];
    forall x | x in s
      ensures x.sentence in sentences
    {
      assert x in r;
    }
  }

  /** Every selected score is at least every unselected score, and on equal
      scores the selected sentence occurs earlier in the transcript. */
  lemma SelectedBest(sentences: seq<string>, freq: multiset<string>, maxSentences: int)
    ensures var s, r := Selected(sentences, freq, maxSentences), Ranked(sentences, freq);
      forall i, j :: 0 <= i < |s| <= j < |r| ==> s[i].score >= r[j].score
    ensures var s, r := Selected(sentences, freq, maxSentences), Ranked(sentences, freq);
      forall i, j :: 0 <= i < |s| <= j < |r| && s[i].score == r[j].score ==>
        s[i].sentence in sentences && r[j].sentence in sentences &&
        IndexIn(sentences, s[i].sentence) < IndexIn(sentences, r[j].sentence)
  {
    var s, r := Selected(sentences, freq, maxSentences), Ranked(sentences, freq);
    RankedOrder(sentences, freq);
    forall i | 0 <= i < |s|
      ensures s[i] == r[i]
    {
    }
  }

  /** The selected sentences come back in transcript order, each once. */
  lemma OrderedFacts(sentences: seq<string>, freq: multiset<string>, maxSentences: int)
    ensures var o := Ordered(sentences, freq, maxSentences);
      multiset(o) == multiset(Selected(sentences, freq, maxSentences))
    ensures forall x :: x in Ordered(sentences, freq, maxSentences) ==> x.sentence in sentences
    ensures var o := Ordered(sentences, freq, maxSentences);
      forall i, j :: 0 <= i < j < |o| ==>
        o[i].sentence in sentences && o[j].sentence in sentences &&
        IndexIn(sentences, o[i].sentence) < IndexIn(sentences, o[j].sentence)
  {
    var o := Ordered(sentences, freq, maxSentences);
    SortByFacts(Selected(sentences, freq, maxSentences), ByFirstIndex(sentences));
    SelectedMembers(sentences, freq, maxSentences);
    forall x | x in o
      ensures x.sentence in sentences
    {
      assert x in multiset(Selected(sentences, freq, maxSentences));
    }
    forall i, j | 0 <= i < j < |o|
      ensures o[i].sentence in sentences && o[j].sentence in sentences &&
        IndexIn(sentences, o[i].sentence) < IndexIn(sentences, o[j].sentence)
    {
      OrderedPair(sentences, freq, maxSentences, i, j);
    }
  }

  lemma OrderedPair(sentences: seq<string>, freq: multiset<string>, maxSentences: int, i: nat, j: nat)
    requires i < j < |Ordered(sentences, freq, maxSentences)|
    ensures var o := Ordered(sentences, freq, maxSentences);
      o[i].sentence in sentences && o[j].sentence in sentences &&
      IndexIn(sentences, o[i].sentence) < IndexIn(sentences, o[j].sentence)
  {
    var s := Selected(sentences, freq, maxSentences);
    var o := Ordered(sentences, freq, maxSentences);
    var key := ByFirstIndex(sentences);
    SelectedMembers(sentences, freq, maxSentences);
    SortByFacts(s, key);
    PermutedPairDistinct(s, o, i, j);
    var a, b := o[i], o[j];
    assert a in multiset(s) && b in multiset(s);
    assert a.sentence in sentences && b.sentence in sentences;
    assert key(a) <= key(b);
    IndexInDistinct(sentences, a.sentence, b.sentence);
  }

  /** Different elements have different first indices. */
  lemma IndexInDistinct<T>(xs: seq<T>, x: T, y: T)
    requires x in xs && y in xs && x != y
    ensures IndexIn(xs, x) != IndexIn(xs, y)
  {
  }

  // ---------------------------------------------------------------------------
  // Outcomes

  /** Lines 49-52: the check stops with the empty-transcript failure exactly
      when the transcript is empty once whitespace is collapsed and stripped. */
  lemma EmptyOutcome(transcript: string, maxSentences: int)
    ensures Precheck(transcript, maxSentences) == Done(EmptyTranscript) <==>
      Strip(CollapseSpaces(transcript)) == []
  {
    var text := Strip(CollapseSpaces(transcript));
    if text != [] {
      var sentences := Sentences(text);
      if |sentences| > maxSentences && |sentences| > 0 && |Frequencies(sentences)| > 0 {
        assert Precheck(transcript, maxSentences) == Rank(sentences);
      }
    }
  }

  /** Lines 59-62: a non-empty transcript without a sentence gives the
      no-sentence failure, and nothing else does. */
  lemma NoSentencesOutcome(transcript: string, maxSentences: int)
    ensures var text := Strip(CollapseSpaces(transcript));
      Precheck(transcript, maxSentences) == Done(NoSentences) <==> text != [] && Sentences(text) == []
  {
    var text := Strip(CollapseSpaces(transcript));
    if text != [] {
      var sentences := Sentences(text);
      if |sentences| > maxSentences && |sentences| > 0 && |Frequencies(sentences)| > 0 {
        assert Precheck(transcript, maxSentences) == Rank(sentences);
      }
    }
  }

  /** Lines 64-65: a transcript of at most max_sentences sentences comes back
      whole, with its whitespace collapsed and stripped. */
  lemma ShortOutcome(transcript: string, maxSentences: int)
    requires var text := Strip(CollapseSpaces(transcript));
      text != [] && 0 < |Sentences(text)| <= maxSentences
    ensures Precheck(transcript, maxSentences) == Done(Summary(Strip(CollapseSpaces(transcript))))
  {
  }

  /** Lines 94-95: past the sentence checks, the no-meaningful-words failure
      comes exactly when no sentence has a counted token. */
  lemma NoWordsOutcome(transcript: string, maxSentences: int)
    ensures var text := Strip(CollapseSpaces(transcript));
      var sentences := Sentences(text);
      Precheck(transcript, maxSentences) == Done(NoMeaningfulWords) <==>
        text != [] && maxSentences < |sentences| && |sentences| > 0 &&
        forall i :: 0 <= i < |sentences| ==> CountedTokens(sentences[i]) == []
  {
    var text := Strip(CollapseSpaces(transcript));
    if text != [] {
      var sentences := Sentences(text);
      AllCountedEmpty(sentences);
      if |sentences| > maxSentences && |sentences| > 0 && |Frequencies(sentences)| > 0 {
        assert Precheck(transcript, maxSentences) == Rank(sentences);
      }
    }
  }

  /** Ranking starts exactly when every check passed. */
  lemma RankedPath(transcript: string, maxSentences: int)
    ensures var text := Strip(CollapseSpaces(transcript));
      var sentences := Sentences(text);
      Precheck(transcript, maxSentences).Rank? <==>
        text != [] && maxSentences < |sentences| && |Frequencies(sentences)| > 0
  {
    var text := Strip(CollapseSpaces(transcript));
    if text != [] {
      var sentences := Sentences(text);
      if |sentences| > maxSentences && |sentences| > 0 && |Frequencies(sentences)| > 0 {
        assert Precheck(transcript, maxSentences) == Rank(sentences);
      }
    }
  }

  /** Ranking works on the sentences of the transcript, which are non-empty
      and trimmed. */
  lemma RankedSentences(transcript: string, maxSentences: int)
    requires Precheck(transcript, maxSentences).Rank?
    ensures var sentences := Precheck(transcript, maxSentences).sentences;
      && sentences == Sentences(Strip(CollapseSpaces(transcript)))
      && sentences != []
      && forall i :: 0 <= i < |sentences| ==> sentences[i] != [] && Trimmed(sentences[i])
  {
    RankedPath(transcript, maxSentences);
    var text := Strip(CollapseSpaces(transcript));
    var sentences := Sentences(text);
    assert Precheck(transcript, maxSentences) == Rank(sentences);
  }

  /** Past those checks the summary is the ordered selection joined by single
      spaces; it fails only when the selection is empty, which happens exactly
      when max_sentences is 0, or negative and dropping at least as many
      sentences as there are distinct ones. */
  lemma RankedOutcome(sentences: seq<string>, maxSentences: int)
    requires sentences != []
    requires forall i :: 0 <= i < |sentences| ==> sentences[i] != [] && Trimmed(sentences[i])
    ensures var o := Ordered(sentences, Frequencies(sentences), maxSentences);
      RankedSummary(sentences, maxSentences) == if o == [] then GenerationFailed else Summary(Join(Texts(o), " "))
    ensures RankedSummary(sentences, maxSentences) == GenerationFailed <==>
      maxSentences == 0 || (maxSentences < 0 && |FirstOccurrences(sentences)| <= -maxSentences)
  {
    var freq := Frequencies(sentences);
    SelectionEmpty(sentences, freq, maxSentences);
    if Ordered(sentences, freq, maxSentences) != [] {
      JoinedSummary(sentences, freq, maxSentences);
    }
  }

  /** What summarize_text returns: the outcome of the checks when they stop,
      and otherwise the ordered selection joined by single spaces, or the
      generation failure exactly when the selection is empty. */
  lemma FinalOutcome(transcript: string, maxSentences: int)
    ensures var p := Precheck(transcript, maxSentences);
      p.Done? ==> SummaryOf(transcript, maxSentences) == p.outcome
    ensures var p := Precheck(transcript, maxSentences);
      p.Rank? ==> (SummaryOf(transcript, maxSentences) == GenerationFailed <==>
        maxSentences == 0 || (maxSentences < 0 && |FirstOccurrences(p.sentences)| <= -maxSentences))
    ensures var p := Precheck(transcript, maxSentences);
      p.Rank? ==>
        var o := Ordered(p.sentences, Frequencies(p.sentences), maxSentences);
        o != [] ==> SummaryOf(transcript, maxSentences) == Summary(Join(Texts(o), " "))
  {
    var p := Precheck(transcript, maxSentences);
    if p.Rank? {
      RankedSentences(transcript, maxSentences);
      RankedOutcome(p.sentences, maxSentences);
      assert SummaryOf(transcript, maxSentences) == RankedSummary(p.sentences, maxSentences);
    }
  }

  lemma SelectionEmpty(sentences: seq<string>, freq: multiset<string>, maxSentences: int)
    requires sentences != []
    ensures Ordered(sentences, freq, maxSentences) == [] <==>
      maxSentences == 0 || (maxSentences < 0 && |FirstOccurrences(sentences)| <= -maxSentences)
  {
    var o := Ordered(sentences, freq, maxSentences);
    var sel := Selected(sentences, freq, maxSentences);
    OrderedFacts(sentences, freq, maxSentences);
    RankedMembers(sentences, freq);
    FirstOccurrencesMembers(sentences);
    assert sentences[0] in FirstOccurrences(sentences);
    if o == [] {
      assert |multiset(sel)| == 0;
    } else {
      assert o[0] in multiset(sel);
    }
  }

  lemma JoinedSummary(sentences: seq<string>, freq: multiset<string>, maxSentences: int)
    requires forall i :: 0 <= i < |sentences| ==> sentences[i] != [] && Trimmed(sentences[i])
    requires Ordered(sentences, freq, maxSentences) != []
    ensures var summary := Join(Texts(Ordered(sentences, freq, maxSentences)), " ");
      summary != [] && Strip(summary) == summary
  {
    var o := Ordered(sentences, freq, maxSentences);
    var parts := Texts(o);
    OrderedFacts(sentences, freq, maxSentences);
    forall i | 0 <= i < |parts|
      ensures parts[i] != [] && Trimmed(parts[i])
    {
      assert o[i].sentence in sentences;
    }
    JoinEnds(parts, " ");
    StripOfTrimmed(Join(parts, " "));
  }

  // ---------------------------------------------------------------------------
  // The loops of summarize_text

  /** The loop of lines 77-92. */
  method WordFrequencies(sentences: seq<string>) returns (wordFreq: multiset<string>)
    ensures wordFreq == Frequencies(sentences)
  {
    wordFreq := multiset{};
    for i := 0 to |sentences|
      invariant wordFreq == Frequencies(sentences[..i])
    {
      PrefixSnoc(sentences, i);
      FlattenSnoc(sentences[..i], sentences[i], CountedTokens);
      var words := CountedTokens(sentences[i]);
      wordFreq := wordFreq + multiset(words);
    }
    assert sentences[..|sentences|] == sentences;
  }

  /** The loop of lines 98-113. */
  method SentenceScores(sentences: seq<string>, wordFreq: multiset<string>) returns (sentenceScores: seq<Scored>)
    ensures sentenceScores == ScoreTable(FirstOccurrences(sentences), wordFreq)
  {
    sentenceScores := [];
    for i := 0 to |sentences|
      invariant sentenceScores == ScoreTable(FirstOccurrences(sentences[..i]), wordFreq)
    {
      var sentence := sentences[i];
      var words := CountedTokens(sentence);
      var score := SumFreq(words, wordFreq);
      FirstOccurrencesDistinct(sentences[..i]);
      SetScoreTable(FirstOccurrences(sentences[..i]), sentence, wordFreq);
      PrefixSnoc(sentences, i);
      FirstOccurrencesSnoc(sentences[..i], sentence);
      sentenceScores := SetScore(sentenceScores, sentence, score);
    }
    assert sentences[..|sentences|] == sentences;
  }

  /** Lines 115-129: rank the sentences, keep the best max_sentences, put them
      back in transcript order and join them. */
  method RankSentences(sentences: seq<string>, wordFreq: multiset<string>, maxSentences: int)
    returns (o: Outcome)
    requires wordFreq == Frequencies(sentences)
    ensures o == RankedSummary(sentences, maxSentences)
  {
    var sentenceScores := SentenceScores(sentences, wordFreq);
    var topSentences := PyPrefix(SortBy(sentenceScores, ByScore), maxSentences);
    topSentences := SortBy(topSentences, ByFirstIndex(sentences));
    var summary := Join(Texts(topSentences), " ");
    if Strip(summary) == [] {
      return GenerationFailed;
    }
    return Summary(summary);
  }

  /** summarize_text on the fallback path. */
  method SummarizeText(transcript: string, maxSentences: int) returns (o: Outcome)
    ensures o == SummaryOf(transcript, maxSentences)
  {
    var text := Strip(CollapseSpaces(transcript));
    if text == [] {
      return EmptyTranscript;
    }
    var sentences := Sentences(text);
    if |sentences| == 0 {
      return NoSentences;
    }
    if |sentences| <= maxSentences {
      return Summary(text);
    }
    var wordFreq := WordFrequencies(sentences);
    if |wordFreq| == 0 {
      return NoMeaningfulWords;
    }
    assert Precheck(transcript, maxSentences) == Rank(sentences);
    o := RankSentences(sentences, wordFreq, maxSentences);
  }
}

=== FILE: text.dfy ===
/** String primitives shared by the transcript cleaner, the WebVTT line filter,
    the URL parser and the summarizer: Python's str methods and the handful of
    regular expressions the two source files use, written out as functions.
    Python's Unicode character classes (isspace, \s, \d, \w, isalnum, lower)
    are modelled over ASCII. */
module Text {

  datatype Option<T> = None | Some(value: T)

  // ---------------------------------------------------------------------------
  // Character classes

  /** str.isspace() on one character, and so \s, split() and strip(). */
  predicate IsSpace(c: char) {
    c == ' ' || c == '\t' || c == '\n' || c == '\r' || c == '\U{000B}' || c == '\U{000C}'
    || ('\U{001C}' <= c <= '\U{001F}')
  }

  predicate IsDigit(c: char) { '0' <= c <= '9' }

  predicate IsLetter(c: char) { 'a' <= c <= 'z' || 'A' <= c <= 'Z' }

  /** The characters \w matches. */
  predicate IsWordChar(c: char) { IsLetter(c) || IsDigit(c) || c == '_' }

  /** str.isdigit(): non-empty and every character a digit. */
  predicate AllDigits(s: string) {
    s != [] && forall i :: 0 <= i < |s| ==> IsDigit(s[i])
  }

  /** str.isalnum(): non-empty and every character a letter or a digit. */
  predicate IsAlnum(s: string) {
    s != [] && forall i :: 0 <= i < |s| ==> IsLetter(s[i]) || IsDigit(s[i])
  }

  function LowerChar(c: char): char {
    if 'A' <= c <= 'Z' then (c as int + 32) as char else c
  }

  /** str.lower() */
  function Lower(s: string): string {
    seq(|s|, i requires 0 <= i < |s| => LowerChar(s[i]))
  }

  /** str.startswith(p) */
  predicate StartsWith(s: string, p: string) { p <= s }

  // ---------------------------------------------------------------------------
  // Shape predicates

  /** No character of s belongs to bad. */
  predicate Avoids(s: string, bad: set<char>) {
    forall i :: 0 <= i < |s| ==> s[i] !in bad
  }

  /** No two whitespace characters stand next to each other. */
  predicate NoSpaceRun(s: string) {
    forall i :: 0 <= i < |s| - 1 ==> !(IsSpace(s[i]) && IsSpace(s[i + 1]))
  }

  /** No ".." in s. */
  predicate NoDotRun(s: string) {
    forall i :: 0 <= i < |s| - 1 ==> !(s[i] == '.' && s[i + 1] == '.')
  }

  /** Neither end of s is whitespace. */
  predicate Trimmed(s: string) {
    s == [] || (!IsSpace(s[0]) && !IsSpace(s[|s| - 1]))
  }

  const Terminators: set<char> := {'.', '!', '?'}

  // ---------------------------------------------------------------------------
  // strip

  /** str.lstrip() */
  function TrimLeft(s: string): (r: string)
    ensures |r| <= |s| && r == s[|s| - |r|..]
    ensures r == [] || !IsSpace(r[0])
    ensures forall i :: 0 <= i < |s| - |r| ==> IsSpace(s[i])
  {
    if s != [] && IsSpace(s[0]) then
      var r := TrimLeft(s[1..]);
      assert s[1..][|s| - 1 - |r|..] == s[|s| - |r|..];
      assert forall i :: 1 <= i < |s| - |r| ==> s[i] == s[1..][i - 1];
      r
    else s
  }

  /** str.rstrip() */
  function TrimRight(s: string): (r: string)
    ensures |r| <= |s| && r == s[..|r|]
    ensures r == [] || !IsSpace(r[|r| - 1])
    ensures forall i :: |r| <= i < |s| ==> IsSpace(s[i])
  {
    if s != [] && IsSpace(s[|s| - 1]) then
      var r := TrimRight(s[..|s| - 1]);
      assert s[..|s| - 1][..|r|] == s[..|r|];
      r
    else s
  }

  /** str.strip(): the result is a slice of s with neither end whitespace,
      and only whitespace was cut away. */
  function Strip(s: string): (r: string)
    ensures Trimmed(r)
    ensures r == [] <==> forall i :: 0 <= i < |s| ==> IsSpace(s[i])
  {
    var l := TrimLeft(s);
    var r := TrimRight(l);
    assert r != [] ==> r[0] == l[0];
    assert r == [] ==> l == [] by {
      if l != [] {
        assert !IsSpace(l[0]);
      }
    }
    r
  }

  lemma StripKeeps(s: string, bad: set<char>)
    ensures Avoids(s, bad) ==> Avoids(Strip(s), bad)
  {
    var l := TrimLeft(s);
    var r := TrimRight(l);
    var off := |s| - |l|;
    assert forall i :: 0 <= i < |r| ==> r[i] == s[off + i];
  }

  /** r is s with the whitespace before index a and from index a + |r| on cut away. */
  predicate IsCutOf(s: string, a: nat, r: string) {
    && a + |r| <= |s|
    && (forall i :: 0 <= i < |r| ==> r[i] == s[a + i])
    && (forall i :: 0 <= i < a ==> IsSpace(s[i]))
    && (forall i :: a + |r| <= i < |s| ==> IsSpace(s[i]))
  }

  /** str.strip() returns a slice of s, and every character it cuts away on
      either side is whitespace. */
  lemma {:induction false} StripSlice(s: string) returns (a: nat)
    ensures IsCutOf(s, a, Strip(s))
  {
    a := TrimCut(s);
  }

  lemma {:induction false} TrimCut(s: string) returns (a: nat)
    ensures IsCutOf(s, a, TrimRight(TrimLeft(s)))
  {
    var l := TrimLeft(s);
    a := TrimLeftCut(s);
    TrimRightCut(l);
    CutOfCut(s, a, l, TrimRight(l));
  }

  lemma {:induction false} TrimLeftCut(s: string) returns (a: nat)
    ensures IsCutOf(s, a, TrimLeft(s))
  {
    a := |s| - |TrimLeft(s)|;
    SuffixCut(s, a);
  }

  lemma {:induction false} SuffixCut(s: string, a: nat)
    requires a <= |s| && forall i :: 0 <= i < a ==> IsSpace(s[i])
    ensures IsCutOf(s, a, s[a..])
  {
  }

  lemma {:induction false} TrimRightCut(s: string)
    ensures IsCutOf(s, 0, TrimRight(s))
  {
  }

  lemma {:induction false} CutOfCut(s: string, a: nat, l: string, r: string)
    requires IsCutOf(s, a, l) && IsCutOf(l, 0, r)
    ensures IsCutOf(s, a, r)
  {
    forall i | a + |r| <= i < |s|
      ensures IsSpace(s[i])
    {
      if i < a + |l| {
        assert s[i] == l[i - a];
      }
    }
  }

  lemma StripOfTrimmed(s: string)
    requires Trimmed(s)
    ensures Strip(s) == s
  {
  }

  // ---------------------------------------------------------------------------
  // re.sub(r'\s+', ' ', s)

  /** Every maximal run of whitespace replaced by one space. */
  function CollapseSpaces(s: string): (r: string)
    ensures NoSpaceRun(r)
    ensures s == [] <==> r == []
    ensures s != [] && !IsSpace(s[0]) ==> r[0] == s[0]
    ensures s != [] && !IsSpace(s[|s| - 1]) ==> r[|r| - 1] == s[|s| - 1]
    decreases |s|
  {
    if s == [] then []
    else if IsSpace(s[0]) then
      var t := TrimLeft(s);
      var rest := CollapseSpaces(t);
      assert s != [] && !IsSpace(s[|s| - 1]) ==> t != [] && t[|t| - 1] == s[|s| - 1];
      ConsNoSpaceRun(' ', rest);
      " " + rest
    else
      var rest := CollapseSpaces(s[1..]);
      ConsNoSpaceRun(s[0], rest);
      [s[0]] + rest
  }

  lemma ConsNoSpaceRun(c: char, rest: string)
    requires NoSpaceRun(rest)
    requires IsSpace(c) && rest != [] ==> !IsSpace(rest[0])
    ensures NoSpaceRun([c] + rest)
  {
    var r := [c] + rest;
    forall i | 0 <= i < |r| - 1 ensures !(IsSpace(r[i]) && IsSpace(r[i + 1])) {
      if i > 0 {
        assert r[i] == rest[i - 1] && r[i + 1] == rest[i];
      }
    }
  }

  lemma {:induction false} CollapseSpacesAvoids(s: string, bad: set<char>)
    requires ' ' !in bad && Avoids(s, bad)
    ensures Avoids(CollapseSpaces(s), bad)
    decreases |s|
  {
    if s == [] {
    } else if IsSpace(s[0]) {
      var t := TrimLeft(s);
      assert Avoids(t, bad) by {
        forall i | 0 <= i < |t| ensures t[i] !in bad { assert t[i] == s[|s| - |t| + i]; }
      }
      CollapseSpacesAvoids(t, bad);
    } else {
      CollapseSpacesAvoids(s[1..], bad);
    }
  }

  /** One step of CollapseSpaces, for proofs that should not unfold it. */
  lemma CollapseSpacesCons(s: string)
    requires s != []
    ensures IsSpace(s[0]) ==> CollapseSpaces(s) == [' '] + CollapseSpaces(TrimLeft(s))
    ensures !IsSpace(s[0]) ==> CollapseSpaces(s) == [s[0]] + CollapseSpaces(s[1..])
  {
  }

  /** Every whitespace character of s is a plain space. */
  predicate PlainSpaces(s: string) {
    forall i :: 0 <= i < |s| && IsSpace(s[i]) ==> s[i] == ' '
  }

  lemma ConsPlainSpaces(c: char, s: string)
    requires PlainSpaces(s) && (IsSpace(c) ==> c == ' ')
    ensures PlainSpaces([c] + s)
  {
    var r := [c] + s;
    forall i | 0 <= i < |r| && IsSpace(r[i]) ensures r[i] == ' ' {
      if i > 0 {
        assert r[i] == s[i - 1];
      }
    }
  }

  /** Every whitespace character left is a plain space. */
  lemma {:induction false} CollapseSpacesPlain(s: string)
    ensures PlainSpaces(CollapseSpaces(s))
    decreases |s|
  {
    if s != [] {
      CollapseSpacesCons(s);
      if IsSpace(s[0]) {
        CollapseSpacesPlain(TrimLeft(s));
        ConsPlainSpaces(' ', CollapseSpaces(TrimLeft(s)));
      } else {
        CollapseSpacesPlain(s[1..]);
        ConsPlainSpaces(s[0], CollapseSpaces(s[1..]));
      }
    }
  }

  /** Collapsing whitespace keeps the words: str.split() sees the same words
      before and after. */
  lemma {:induction false} CollapseSpacesWords(s: string)
    ensures SplitWords(CollapseSpaces(s)) == SplitWords(s)
    decreases |s|
  {
    if s != [] {
      CollapseSpacesCons(s);
      if IsSpace(s[0]) {
        CollapseSpacesSpaceWords(s);
      } else {
        CollapseSpacesWordWords(s);
      }
    }
  }

  lemma {:induction false} CollapseSpacesSpaceWords(s: string)
    requires s != [] && IsSpace(s[0])
    ensures SplitWords(CollapseSpaces(s)) == SplitWords(s)
    decreases |s|, 0
  {
    var t := TrimLeft(s);
    var c := CollapseSpaces(t);
    CollapseSpacesCons(s);
    assert CollapseSpaces(s) == [' '] + c;
    CollapseSpacesWords(t);
    SplitWordsSpaceCons(c);
    SplitWordsTrimmedLeft(s);
  }

  lemma {:induction false} CollapseSpacesWordWords(s: string)
    requires s != [] && !IsSpace(s[0])
    ensures SplitWords(CollapseSpaces(s)) == SplitWords(s)
    decreases |s|, 0
  {
    var x := s[1..];
    var c := CollapseSpaces(x);
    CollapseSpacesCons(s);
    assert s == [s[0]] + x;
    CollapseSpacesWords(x);
    if x == [] {
      SplitWordsNewWord(s[0], x);
      SplitWordsNewWord(s[0], c);
    } else if IsSpace(x[0]) {
      CollapseSpacesCons(x);
      SplitWordsNewWord(s[0], x);
      SplitWordsNewWord(s[0], c);
    } else {
      SplitWordsJoinWord(s[0], x);
      SplitWordsJoinWord(s[0], c);
    }
  }

  // ---------------------------------------------------------------------------
  // re.sub(r'\.+', '.', s)

  /** Every maximal run of dots replaced by one dot. */
  function SqueezeDots(s: string): (r: string)
    ensures |r| <= |s|
    ensures s != [] ==> r != [] && r[0] == s[0] && r[|r| - 1] == s[|s| - 1]
    ensures NoDotRun(r)
  {
    if |s| <= 1 then s
    else if s[0] == '.' && s[1] == '.' then SqueezeDots(s[1..])
    else
      var rest := SqueezeDots(s[1..]);
      var r := [s[0]] + rest;
      assert forall i :: 1 <= i < |r| ==> r[i] == rest[i - 1];
      r
  }

  /** Squeezing dots only deletes characters ... */
  lemma {:induction false} SqueezeDotsAvoids(s: string, bad: set<char>)
    requires Avoids(s, bad)
    ensures Avoids(SqueezeDots(s), bad)
  {
    if |s| <= 1 {
    } else if s[0] == '.' && s[1] == '.' {
      SqueezeDotsAvoids(s[1..], bad);
    } else {
      SqueezeDotsAvoids(s[1..], bad);
      var rest := SqueezeDots(s[1..]);
      var r := [s[0]] + rest;
      assert forall i :: 1 <= i < |r| ==> r[i] == rest[i - 1];
    }
  }

  /** ... and makes no new neighbours. */
  lemma {:induction false} SqueezeDotsNoSpaceRun(s: string)
    requires NoSpaceRun(s)
    ensures NoSpaceRun(SqueezeDots(s))
  {
    if |s| <= 1 {
    } else if s[0] == '.' && s[1] == '.' {
      SqueezeDotsNoSpaceRun(s[1..]);
    } else {
      SqueezeDotsNoSpaceRun(s[1..]);
      var rest := SqueezeDots(s[1..]);
      var r := [s[0]] + rest;
      assert r[1] == s[1];
      forall i | 0 <= i < |r| - 1 ensures !(IsSpace(r[i]) && IsSpace(r[i + 1])) {
        if i > 0 {
          assert r[i] == rest[i - 1] && r[i + 1] == rest[i];
        }
      }
    }
  }

  /** One step of SqueezeDots, for proofs that should not unfold it. */
  lemma {:induction false} SqueezeDotsCons(x: char, t: string)
    ensures SqueezeDots([x] + t) ==
      if t == [] then [x]
      else if x == '.' && t[0] == '.' then SqueezeDots(t)
      else [x] + SqueezeDots(t)
  {
    assert ([x] + t)[1..] == t;
  }

  /** A character other than '.' is kept, and it separates the text into two
      parts squeezed independently. */
  lemma {:induction false} SqueezeDotsSplit(a: string, c: char, b: string)
    requires c != '.'
    ensures SqueezeDots(a + [c] + b) == SqueezeDots(a) + [c] + SqueezeDots(b)
    decreases |a|
  {
    if a == [] {
      assert a + [c] + b == [c] + b;
      SqueezeDotsCons(c, b);
    } else {
      var t := a[1..];
      var rest := t + [c] + b;
      assert a + [c] + b == [a[0]] + rest;
      assert a == [a[0]] + t;
      var x, y := SqueezeDots(t), SqueezeDots(b);
      SqueezeDotsSplit(t, c, b);
      assert SqueezeDots(rest) == x + [c] + y;
      SqueezeDotsCons(a[0], rest);
      SqueezeDotsCons(a[0], t);
      if t != [] && a[0] == '.' && t[0] == '.' {
        assert rest[0] == t[0];
        assert SqueezeDots(a) == x;
      } else {
        assert t == [] || rest[0] == t[0];
        assert SqueezeDots(a) == [a[0]] + x;
        assert SqueezeDots(a + [c] + b) == [a[0]] + (x + [c] + y);
        ConcatRegroup([a[0]], x, [c], y);
      }
    }
  }

  lemma ConcatRegroup<T>(p: seq<T>, x: seq<T>, q: seq<T>, y: seq<T>)
    ensures p + (x + q + y) == p + x + q + y
  {
  }

  /** A run made only of dots squeezes to a single dot. */
  lemma {:induction false} SqueezeDotsRun(s: string)
    requires s != [] && forall i :: 0 <= i < |s| ==> s[i] == '.'
    ensures SqueezeDots(s) == "."
    decreases |s|
  {
    if |s| > 1 {
      SqueezeDotsRun(s[1..]);
    }
  }

  // ---------------------------------------------------------------------------
  // str.split(), str.split(c), re.split(r'[.!?]+', s) and str.join

  /** Length of the longest prefix of s free of whitespace. */
  function WordLen(s: string): (n: nat)
    ensures n <= |s|
    ensures forall i :: 0 <= i < n ==> !IsSpace(s[i])
    ensures n == |s| || IsSpace(s[n])
  {
    if s == [] || IsSpace(s[0]) then 0 else 1 + WordLen(s[1..])
  }

  /** A non-empty run of non-whitespace. */
  predicate IsSplitWord(w: string) {
    w != [] && forall k :: 0 <= k < |w| ==> !IsSpace(w[k])
  }

  /** str.split() with no argument: the maximal runs of non-whitespace. */
  function SplitWords(s: string): (r: seq<string>)
    ensures forall i :: 0 <= i < |r| ==> IsSplitWord(r[i])
    decreases |s|
  {
    var t := TrimLeft(s);
    if t == [] then []
    else
      var n := WordLen(t);
      FirstWord(s);
      var rest := SplitWords(t[n..]);
      ConsWords(t[..n], rest);
      [t[..n]] + rest
  }

  lemma {:induction false} FirstWord(s: string)
    requires TrimLeft(s) != []
    ensures var t := TrimLeft(s);
      0 < WordLen(t) && |t[WordLen(t)..]| < |s| && IsSplitWord(t[..WordLen(t)])
  {
    var t := TrimLeft(s);
    var n := WordLen(t);
    assert !IsSpace(t[0]);
    assert forall k :: 0 <= k < n ==> t[..n][k] == t[k];
  }

  lemma ConsWords(w: string, rest: seq<string>)
    requires IsSplitWord(w) && forall i :: 0 <= i < |rest| ==> IsSplitWord(rest[i])
    ensures forall i :: 0 <= i < |[w] + rest| ==> IsSplitWord(([w] + rest)[i])
  {
  }

  /** Leading whitespace does not change the words. */
  lemma {:induction false} SplitWordsTrimmedLeft(s: string)
    ensures SplitWords(TrimLeft(s)) == SplitWords(s)
  {
    var t := TrimLeft(s);
    assert TrimLeft(t) == t;
  }

  lemma {:induction false} SplitWordsSpaceCons(x: string)
    ensures SplitWords(" " + x) == SplitWords(x)
  {
    assert (" " + x)[1..] == x;
    assert TrimLeft(" " + x) == TrimLeft(x);
  }

  /** A non-space character in front of x forms a word of its own when x is
      empty or starts with whitespace. */
  lemma {:induction false} SplitWordsNewWord(c: char, x: string)
    requires !IsSpace(c) && (x == [] || IsSpace(x[0]))
    ensures SplitWords([c] + x) == [[c]] + SplitWords(x)
  {
    var y := [c] + x;
    assert y[1..] == x;
    assert WordLen(y) == 1;
    assert y[..1] == [c];
    SplitWordsStart(y);
  }

  /** Otherwise it joins the first word of x. */
  lemma {:induction false} SplitWordsJoinWord(c: char, x: string)
    requires !IsSpace(c) && x != [] && !IsSpace(x[0])
    ensures SplitWords(x) != []
    ensures SplitWords([c] + x) == [[c] + SplitWords(x)[0]] + SplitWords(x)[1..]
  {
    var y := [c] + x;
    var m := WordLen(x);
    assert y[1..] == x;
    assert WordLen(y) == 1 + m;
    assert y[..1 + m] == [c] + x[..m];
    assert y[1 + m..] == x[m..];
    SplitWordsStart(y);
    SplitWordsStart(x);
  }

  /** A text starting with a non-space character starts with its first word. */
  lemma {:induction false} SplitWordsStart(y: string)
    requires y != [] && !IsSpace(y[0])
    ensures SplitWords(y) == [y[..WordLen(y)]] + SplitWords(y[WordLen(y)..])
  {
    assert TrimLeft(y) == y;
  }

  /** str.split(sep) for a one-character separator. */
  function SplitOn(s: string, sep: char): (r: seq<string>)
    ensures |r| >= 1
    ensures forall i :: 0 <= i < |r| ==> sep !in r[i]
  {
    if s == [] then [[]]
    else
      var rest := SplitOn(s[1..], sep);
      if s[0] == sep then [[]] + rest else [[s[0]] + rest[0]] + rest[1..]
  }

  /** Splitting on sep and joining with sep gives the text back. */
  lemma {:induction false} SplitOnJoin(s: string, sep: char)
    ensures Join(SplitOn(s, sep), [sep]) == s
    decreases |s|
  {
    if s != [] {
      var t := s[1..];
      var rest := SplitOn(t, sep);
      assert s == [s[0]] + t;
      SplitOnCons(s[0], t, sep);
      SplitOnJoin(t, sep);
      if s[0] == sep {
        JoinCons([], rest, [sep]);
      } else {
        JoinHead(s[0], rest, [sep]);
      }
    }
  }

  /** One step of SplitOn, for proofs that should not unfold it. */
  lemma {:induction false} SplitOnCons(x: char, t: string, sep: char)
    ensures x == sep ==> SplitOn([x] + t, sep) == [[]] + SplitOn(t, sep)
    ensures x != sep ==> SplitOn([x] + t, sep) == [[x] + SplitOn(t, sep)[0]] + SplitOn(t, sep)[1..]
  {
    assert ([x] + t)[1..] == t;
  }

  /** A character put in front of the first part comes out in front of the join. */
  lemma {:induction false} JoinHead(c: char, parts: seq<string>, sep: string)
    requires parts != []
    ensures Join([[c] + parts[0]] + parts[1..], sep) == [c] + Join(parts, sep)
  {
    if |parts| > 1 {
      var tail := parts[1..];
      assert [parts[0]] + tail == parts;
      JoinCons(parts[0], tail, sep);
      JoinCons([c] + parts[0], tail, sep);
      ConcatRegroup([c], parts[0], sep, Join(tail, sep));
    }
  }

  /** One step of Join on a list of at least two parts. */
  lemma JoinCons(p: string, rest: seq<string>, sep: string)
    requires rest != []
    ensures Join([p] + rest, sep) == p + sep + Join(rest, sep)
  {
    assert ([p] + rest)[1..] == rest;
  }

  /** s without its leading run of sentence terminators. */
  function DropTerminators(s: string): (r: string)
    ensures |r| <= |s| && r == s[|s| - |r|..]
    ensures r == [] || r[0] !in Terminators
    ensures s != [] && s[0] in Terminators ==> |r| < |s|
    ensures forall i :: 0 <= i < |s| - |r| ==> s[i] in Terminators
  {
    if s != [] && s[0] in Terminators then
      var r := DropTerminators(s[1..]);
      assert s[1..][|s| - 1 - |r|..] == s[|s| - |r|..];
      assert forall i :: 1 <= i < |s| - |r| ==> s[i] == s[1..][i - 1];
      r
    else s
  }

  /** re.split(r'[.!?]+', s): the pieces between maximal runs of '.', '!' and '?',
      including the empty pieces before a leading run and after a trailing one. */
  function SplitSentences(s: string): (r: seq<string>)
    ensures |r| >= 1
    ensures forall i :: 0 <= i < |r| ==> Avoids(r[i], Terminators)
    decreases |s|
  {
    if s == [] then [[]]
    else if s[0] in Terminators then [[]] + SplitSentences(DropTerminators(s))
    else
      var rest := SplitSentences(s[1..]);
      var first := [s[0]] + rest[0];
      assert Avoids(first, Terminators) by {
        assert forall i :: 1 <= i < |first| ==> first[i] == rest[0][i - 1];
      }
      [first] + rest[1..]
  }

  /** One step of SplitSentences, for proofs that should not unfold it. */
  lemma {:induction false} SplitSentencesCons(x: char, t: string)
    ensures x in Terminators ==> SplitSentences([x] + t) == [[]] + SplitSentences(DropTerminators(t))
    ensures x !in Terminators ==> SplitSentences([x] + t) == [[x] + SplitSentences(t)[0]] + SplitSentences(t)[1..]
  {
    assert ([x] + t)[1..] == t;
  }

  /** Text without a terminator is one piece. */
  lemma {:induction false} SplitSentencesPlain(s: string)
    requires Avoids(s, Terminators)
    ensures SplitSentences(s) == [s]
    decreases |s|
  {
    if s != [] {
      var t := s[1..];
      assert Avoids(t, Terminators) by {
        forall i | 0 <= i < |t| ensures t[i] !in Terminators { assert t[i] == s[i + 1]; }
      }
      SplitSentencesPlain(t);
      assert s == [s[0]] + t;
      SplitSentencesCons(s[0], t);
    }
  }

  /** The first terminator of the text ends the first piece; the run of
      terminators it starts is dropped, and the rest is split on its own. */
  lemma {:induction false} SplitSentencesCut(a: string, t: char, b: string)
    requires Avoids(a, Terminators) && t in Terminators
    ensures SplitSentences(a + [t] + b) == [a] + SplitSentences(DropTerminators(b))
    decreases |a|
  {
    if a == [] {
      assert a + [t] + b == [t] + b;
      SplitSentencesCons(t, b);
      assert ([t] + b)[1..] == b;
    } else {
      var u := a[1..];
      assert Avoids(u, Terminators) by {
        forall i | 0 <= i < |u| ensures u[i] !in Terminators { assert u[i] == a[i + 1]; }
      }
      assert a + [t] + b == [a[0]] + (u + [t] + b);
      assert a == [a[0]] + u;
      SplitSentencesCut(u, t, b);
      SplitSentencesCons(a[0], u + [t] + b);
    }
  }

  /** [p.strip() for p in pieces if p.strip()] */
  function NonEmptyStripped(pieces: seq<string>): (r: seq<string>)
    ensures |r| <= |pieces|
    ensures forall i :: 0 <= i < |r| ==> r[i] != [] && Trimmed(r[i])
  {
    if pieces == [] then []
    else
      var s := Strip(pieces[|pieces| - 1]);
      NonEmptyStripped(pieces[..|pieces| - 1]) + (if s == [] then [] else [s])
  }

  lemma NonEmptyStrippedSnoc(pieces: seq<string>, p: string)
    ensures NonEmptyStripped(pieces + [p]) == NonEmptyStripped(pieces) + (if Strip(p) == [] then [] else [Strip(p)])
  {
    assert (pieces + [p])[..|pieces|] == pieces;
  }

  /** What one piece adds to the comprehension. */
  function StrippedPart(p: string): seq<string> {
    if Strip(p) == [] then [] else [Strip(p)]
  }

  /** The comprehension is the accumulation of StrippedPart over the pieces. */
  lemma {:induction false} NonEmptyStrippedFlatten(pieces: seq<string>)
    ensures NonEmptyStripped(pieces) == Flatten(pieces, StrippedPart)
    decreases |pieces|
  {
    if pieces != [] {
      NonEmptyStrippedFlatten(pieces[..|pieces| - 1]);
    }
  }

  /** A piece is kept exactly when it is the non-empty strip of some input piece. */
  lemma {:induction false} NonEmptyStrippedMembers(pieces: seq<string>)
    ensures forall x :: x in NonEmptyStripped(pieces) <==>
      x != [] && exists i :: 0 <= i < |pieces| && Strip(pieces[i]) == x
  {
    NonEmptyStrippedFlatten(pieces);
    FlattenMembers(pieces, StrippedPart);
    forall x | x != [] && exists i :: 0 <= i < |pieces| && Strip(pieces[i]) == x
      ensures x in NonEmptyStripped(pieces)
    {
      var i :| 0 <= i < |pieces| && Strip(pieces[i]) == x;
      assert x in StrippedPart(pieces[i]);
    }
  }

  /** The comprehension works piece by piece: it keeps the input order. */
  lemma {:induction false} NonEmptyStrippedAppend(a: seq<string>, b: seq<string>)
    ensures NonEmptyStripped(a + b) == NonEmptyStripped(a) + NonEmptyStripped(b)
  {
    NonEmptyStrippedFlatten(a + b);
    NonEmptyStrippedFlatten(a);
    NonEmptyStrippedFlatten(b);
    FlattenAppend(a, b, StrippedPart);
  }

  lemma {:induction false} NonEmptyStrippedAvoids(pieces: seq<string>, bad: set<char>)
    requires forall i :: 0 <= i < |pieces| ==> Avoids(pieces[i], bad)
    ensures forall i :: 0 <= i < |NonEmptyStripped(pieces)| ==> Avoids(NonEmptyStripped(pieces)[i], bad)
    decreases |pieces|
  {
    if pieces != [] {
      NonEmptyStrippedAvoids(pieces[..|pieces| - 1], bad);
      StripKeeps(pieces[|pieces| - 1], bad);
    }
  }

  /** sep.join(parts) */
  function Join(parts: seq<string>, sep: string): string {
    if parts == [] then []
    else if |parts| == 1 then parts[0]
    else parts[0] + sep + Join(parts[1..], sep)
  }

  lemma {:induction false} JoinAvoids(parts: seq<string>, sep: string, bad: set<char>)
    requires Avoids(sep, bad)
    requires forall i :: 0 <= i < |parts| ==> Avoids(parts[i], bad)
    ensures Avoids(Join(parts, sep), bad)
  {
    if |parts| > 1 {
      JoinAvoids(parts[1..], sep, bad);
      var tail := Join(parts[1..], sep);
      var r := parts[0] + sep + tail;
      forall i | 0 <= i < |r| ensures r[i] !in bad {
        if i < |parts[0]| {
          assert r[i] == parts[0][i];
        } else if i < |parts[0]| + |sep| {
          assert r[i] == sep[i - |parts[0]|];
        } else {
          assert r[i] == tail[i - |parts[0]| - |sep|];
        }
      }
    }
  }

  /** A join of non-empty parts begins with the first part's first character
      and ends with the last part's last character. */
  lemma {:induction false} JoinEnds(parts: seq<string>, sep: string)
    requires parts != []
    requires forall i :: 0 <= i < |parts| ==> parts[i] != []
    ensures Join(parts, sep) != []
    ensures Join(parts, sep)[0] == parts[0][0]
    ensures Join(parts, sep)[|Join(parts, sep)| - 1] == parts[|parts| - 1][|parts[|parts| - 1]| - 1]
  {
    if |parts| > 1 {
      JoinEnds(parts[1..], sep);
    }
  }

  /** Joining trimmed, non-empty parts without inner whitespace runs with single
      spaces gives a trimmed string without whitespace runs. */
  lemma {:induction false} JoinWithSpaces(parts: seq<string>)
    requires forall i :: 0 <= i < |parts| ==> parts[i] != [] && Trimmed(parts[i]) && NoSpaceRun(parts[i])
    ensures NoSpaceRun(Join(parts, " ")) && Trimmed(Join(parts, " "))
  {
    if |parts| > 1 {
      JoinWithSpaces(parts[1..]);
      JoinEnds(parts[1..], " ");
      var p := parts[0];
      var tail := Join(parts[1..], " ");
      var r := p + " " + tail;
      assert r[|p|] == ' ';
      forall i | 0 <= i < |r| - 1 ensures !(IsSpace(r[i]) && IsSpace(r[i + 1])) {
        if i < |p| - 1 {
          assert r[i] == p[i] && r[i + 1] == p[i + 1];
        } else if i == |p| - 1 {
          assert r[i] == p[|p| - 1];
        } else if i == |p| {
          assert r[i + 1] == tail[0];
        } else {
          assert r[i] == tail[i - |p| - 1] && r[i + 1] == tail[i - |p|];
        }
      }
      assert r[0] == p[0];
      assert r[|r| - 1] == tail[|tail| - 1];
    }
  }

  // ---------------------------------------------------------------------------
  // Searching

  /** Length of the longest prefix of s made of digits. */
  function DigitRunLen(s: string): (n: nat)
    ensures n <= |s|
    ensures forall i :: 0 <= i < n ==> IsDigit(s[i])
    ensures n == |s| || !IsDigit(s[n])
  {
    if s == [] || !IsDigit(s[0]) then 0 else 1 + DigitRunLen(s[1..])
  }

  /** The index of the first occurrence of m in s, as str.find. */
  function Find(s: string, m: string): (r: Option<nat>)
    ensures r.Some? ==> r.value + |m| <= |s| && m <= s[r.value..]
    ensures r.Some? ==> forall k :: 0 <= k < r.value ==> !(m <= s[k..])
    ensures r.None? ==> forall k :: 0 <= k <= |s| ==> !(m <= s[k..])
    decreases |s|
  {
    if m <= s then Some(0)
    else if s == [] then None
    else
      var rest := Find(s[1..], m);
      TailSlices(s);
      match rest
      case Some(j) => Some(j + 1)
      case None => None
  }

  lemma TailSlices(s: string)
    requires s != []
    ensures forall k :: 1 <= k <= |s| ==> s[k..] == s[1..][k - 1..]
  {
  }

  /** The index of the first c in s. */
  function FirstIndexOf(s: string, c: char): (r: Option<nat>)
    ensures r.Some? ==> r.value < |s| && s[r.value] == c && c !in s[..r.value]
    ensures r.None? ==> c !in s
  {
    if s == [] then None
    else if s[0] == c then Some(0)
    else match FirstIndexOf(s[1..], c)
      case Some(j) => Some(j + 1)
      case None => None
  }

  /** m in s */
  predicate Contains(s: string, m: string) { Find(s, m).Some? }

  /** s.split(m)[0]: s up to the first occurrence of m, or all of s. */
  function Before(s: string, m: string): (r: string)
    ensures r <= s
    ensures forall k :: 0 <= k < |r| ==> !(m <= s[k..])
    ensures |r| == |s| || m <= s[|r|..]
  {
    match Find(s, m)
    case Some(j) => s[..j]
    case None => s
  }

  /** s.split(m)[1] when m occurs in s: the text between the first and the
      second occurrence of m, or to the end of s. */
  function Between(s: string, m: string): string
    requires Contains(s, m)
  {
    Before(s[Find(s, m).value + |m|..], m)
  }

  /** s.split(c)[0] for a one-character c holds no c and stops at the end of
      s or at a c. */
  lemma BeforeChar(s: string, c: char)
    ensures c !in Before(s, [c])
    ensures var r := Before(s, [c]); |r| == |s| || s[|r|] == c
  {
    var r := Before(s, [c]);
    forall k | 0 <= k < |r|
      ensures r[k] != c
    {
      assert !([c] <= s[k..]);
    }
    if |r| < |s| {
      assert [c] <= s[|r|..];
    }
  }

  // ---------------------------------------------------------------------------
  // Subsequences, list.index and first occurrences

  /** a can be obtained from b by deleting elements. */
  predicate IsSubsequence<T(==)>(a: seq<T>, b: seq<T>)
    decreases |b|
  {
    a == [] || (b != [] && ((a[0] == b[0] && IsSubsequence(a[1..], b[1..])) || IsSubsequence(a, b[1..])))
  }

  lemma {:induction false} SubsequenceExtend<T>(a: seq<T>, b: seq<T>, x: T)
    requires IsSubsequence(a, b)
    ensures IsSubsequence(a, b + [x])
    decreases |b|
  {
    if a != [] {
      assert (b + [x])[1..] == b[1..] + [x];
      if a[0] == b[0] && IsSubsequence(a[1..], b[1..]) {
        SubsequenceExtend(a[1..], b[1..], x);
      } else {
        SubsequenceExtend(a, b[1..], x);
      }
    }
  }

  lemma {:induction false} SubsequenceExtendBoth<T>(a: seq<T>, b: seq<T>, x: T)
    requires IsSubsequence(a, b)
    ensures IsSubsequence(a + [x], b + [x])
    decreases |b|
  {
    if b == [] {
      assert a == [];
      assert ([x] + [])[1..] == [];
    } else if a == [] {
      assert (b + [x])[1..] == b[1..] + [x];
      SubsequenceExtendBoth(a, b[1..], x);
    } else {
      assert (b + [x])[1..] == b[1..] + [x];
      assert (a + [x])[1..] == a[1..] + [x];
      if a[0] == b[0] && IsSubsequence(a[1..], b[1..]) {
        SubsequenceExtendBoth(a[1..], b[1..], x);
      } else {
        SubsequenceExtendBoth(a, b[1..], x);
      }
    }
  }

  /** xs.index(x) */
  function IndexIn<T(==)>(xs: seq<T>, x: T): (i: nat)
    requires x in xs
    ensures i < |xs| && xs[i] == x
    ensures forall k :: 0 <= k < i ==> xs[k] != x
  {
    if xs[0] == x then 0 else 1 + IndexIn(xs[1..], x)
  }

  lemma {:induction false} IndexInPrefix<T>(xs: seq<T>, ys: seq<T>, x: T)
    requires x in xs
    ensures IndexIn(xs + ys, x) == IndexIn(xs, x)
  {
    if xs[0] != x {
      assert (xs + ys)[1..] == xs[1..] + ys;
      IndexInPrefix(xs[1..], ys, x);
    }
  }

  /** The distinct elements of xs in the order of their first occurrence: the
      list a loop builds with `if x not in seen: seen.append(x)`, and the key
      order of a dict filled from xs. */
  function FirstOccurrences<T(==)>(xs: seq<T>): (r: seq<T>)
    ensures |r| <= |xs|
  {
    if xs == [] then []
    else
      var u := FirstOccurrences(xs[..|xs| - 1]);
      if xs[|xs| - 1] in u then u else u + [xs[|xs| - 1]]
  }

  lemma FirstOccurrencesSnoc<T>(xs: seq<T>, x: T)
    ensures FirstOccurrences(xs + [x]) == if x in FirstOccurrences(xs) then FirstOccurrences(xs) else FirstOccurrences(xs) + [x]
  {
    assert (xs + [x])[..|xs|] == xs;
  }

  /** FirstOccurrences(xs) holds exactly the elements of xs ... */
  lemma {:induction false} FirstOccurrencesMembers<T>(xs: seq<T>)
    ensures forall x :: x in FirstOccurrences(xs) <==> x in xs
    decreases |xs|
  {
    if xs != [] {
      var p := xs[..|xs| - 1];
      assert xs == p + [xs[|xs| - 1]];
      FirstOccurrencesMembers(p);
    }
  }

  /** ... each of them once ... */
  lemma {:induction false} FirstOccurrencesDistinct<T>(xs: seq<T>)
    ensures forall i, j :: 0 <= i < j < |FirstOccurrences(xs)| ==> FirstOccurrences(xs)[i] != FirstOccurrences(xs)[j]
    decreases |xs|
  {
    if xs != [] {
      FirstOccurrencesDistinct(xs[..|xs| - 1]);
    }
  }

  /** ... in the order of their first occurrence in xs. */
  lemma {:induction false} FirstOccurrencesOrder<T>(xs: seq<T>)
    ensures forall x :: x in FirstOccurrences(xs) ==> x in xs
    ensures forall i, j :: 0 <= i < j < |FirstOccurrences(xs)| ==>
              IndexIn(xs, FirstOccurrences(xs)[i]) < IndexIn(xs, FirstOccurrences(xs)[j])
    decreases |xs|
  {
    FirstOccurrencesMembers(xs);
    if xs != [] {
      var p := xs[..|xs| - 1];
      var x := xs[|xs| - 1];
      assert xs == p + [x];
      FirstOccurrencesOrder(p);
      var u := FirstOccurrences(p);
      var r := FirstOccurrences(xs);
      assert r == if x in u then u else u + [x];
      FirstOccurrencesMembers(p);
      forall i, j | 0 <= i < j < |r| ensures IndexIn(xs, r[i]) < IndexIn(xs, r[j]) {
        assert r[i] == u[i] && u[i] in p;
        if j < |u| {
          assert r[j] == u[j] && u[j] in p;
          SnocIndexOrder(p, x, u[i], u[j]);
        } else {
          assert r[j] == x && x !in p;
          SnocIndexOrder(p, x, u[i], x);
        }
      }
    }
  }

  lemma SnocIndexOrder<T>(p: seq<T>, x: T, a: T, b: T)
    requires a in p
    requires b in p ==> IndexIn(p, a) < IndexIn(p, b)
    requires b !in p ==> b == x
    ensures IndexIn(p + [x], a) < IndexIn(p + [x], b)
  {
    IndexInPrefix(p, [x], a);
    if b in p {
      IndexInPrefix(p, [x], b);
    } else {
      assert (p + [x])[|p|] == b;
    }
  }

  // ---------------------------------------------------------------------------
  // List comprehensions with a condition

  /** [x for x in s if keep(x)] */
  function Filter<T>(s: seq<T>, keep: T -> bool): (r: seq<T>)
    ensures |r| <= |s|
    ensures forall i :: 0 <= i < |r| ==> keep(r[i])
  {
    if s == [] then []
    else
      var v := Filter(s[..|s| - 1], keep);
      if keep(s[|s| - 1]) then v + [s[|s| - 1]] else v
  }

  /** The filter keeps the elements that pass, in order, each as often as it
      occurs, and nothing else. */
  lemma {:induction false} FilterExact<T>(s: seq<T>, keep: T -> bool)
    ensures IsSubsequence(Filter(s, keep), s)
    ensures forall x ::
              multiset(Filter(s, keep))[x] == (if keep(x) then multiset(s)[x] else 0)
    decreases |s|
  {
    if s != [] {
      var p := s[..|s| - 1];
      var x := s[|s| - 1];
      assert s == p + [x];
      FilterExact(p, keep);
      if keep(x) {
        SubsequenceExtendBoth(Filter(p, keep), p, x);
      } else {
        SubsequenceExtend(Filter(p, keep), p, x);
      }
    }
  }

  /** Nothing passes the filter exactly when no element passes. */
  lemma {:induction false} FilterEmpty<T>(s: seq<T>, keep: T -> bool)
    ensures Filter(s, keep) == [] <==> forall i :: 0 <= i < |s| ==> !keep(s[i])
    decreases |s|
  {
    if s != [] {
      var p := s[..|s| - 1];
      FilterEmpty(p, keep);
      assert forall i :: 0 <= i < |p| ==> p[i] == s[i];
    }
  }

  // ---------------------------------------------------------------------------
  // Collecting the pieces each element of a list contributes

  /** The pieces f gives each element of xs, concatenated in order: a loop that
      extends one list with f(x) for every x. */
  function Flatten<T, U>(xs: seq<T>, f: T -> seq<U>): seq<U> {
    if xs == [] then [] else Flatten(xs[..|xs| - 1], f) + f(xs[|xs| - 1])
  }

  /** The prefix one longer is the prefix and the next element. */
  lemma PrefixSnoc<T>(s: seq<T>, i: nat)
    requires i < |s|
    ensures s[..i + 1] == s[..i] + [s[i]]
  {
  }

  /** One more element appends exactly its pieces. */
  lemma FlattenSnoc<T, U>(xs: seq<T>, x: T, f: T -> seq<U>)
    ensures Flatten(xs + [x], f) == Flatten(xs, f) + f(x)
  {
    assert (xs + [x])[..|xs|] == xs;
  }

  /** The pieces of two blocks are the pieces of each block, in order. */
  lemma {:induction false} FlattenAppend<T, U>(a: seq<T>, b: seq<T>, f: T -> seq<U>)
    ensures Flatten(a + b, f) == Flatten(a, f) + Flatten(b, f)
    decreases |b|
  {
    if b == [] {
      assert a + b == a;
    } else {
      var n := |b| - 1;
      assert a + b == (a + b[..n]) + [b[n]];
      FlattenSnoc(a + b[..n], b[n], f);
      FlattenAppend(a, b[..n], f);
      FlattenSnoc(b[..n], b[n], f);
      assert b == b[..n] + [b[n]];
    }
  }

  /** A value is collected exactly when some element contributes it. */
  lemma {:induction false} FlattenMembers<T, U>(xs: seq<T>, f: T -> seq<U>)
    ensures forall i, y :: 0 <= i < |xs| && y in f(xs[i]) ==> y in Flatten(xs, f)
    ensures forall y :: y in Flatten(xs, f) ==> exists i :: 0 <= i < |xs| && y in f(xs[i])
    decreases |xs|
  {
    if xs != [] {
      var n := |xs| - 1;
      var p := xs[..n];
      FlattenMembers(p, f);
      assert forall i :: 0 <= i < n ==> p[i] == xs[i];
    }
  }

  /** Nothing is collected exactly when every element contributes nothing. */
  lemma {:induction false} FlattenEmpty<T, U>(xs: seq<T>, f: T -> seq<U>)
    ensures Flatten(xs, f) == [] <==> forall i :: 0 <= i < |xs| ==> f(xs[i]) == []
    decreases |xs|
  {
    if xs != [] {
      var n := |xs| - 1;
      var p := xs[..n];
      FlattenEmpty(p, f);
      assert forall i :: 0 <= i < n ==> p[i] == xs[i];
    }
  }
}

=== FILE: vtt.dfy ===
/** parse_vtt_content (utils/youtube_utils.py): a line filter over a WebVTT
    payload. It follows the file structure of section 4.1 of the W3C WebVTT
    specification only loosely. Header lines and cue timing lines are recognised
    by their first characters, and only timing lines of the form
    digits:digits:digits are recognised. A cue identifier is dropped only when
    the whole stripped line is digits. Every other line is cleaned and kept. */
module Vtt {
  import opened Text
  import opened Cleaner

  const NoVttContent := "❌ No transcript content found in VTT."

  /** re.match(r'^\d+:\d+:\d+', line) */
  predicate StartsWithClock(line: string) {
    var a := DigitRunLen(line);
    a >= 1 && a < |line| && line[a] == ':' &&
    var rest := line[a + 1..];
    var b := DigitRunLen(rest);
    b >= 1 && b < |rest| && rest[b] == ':' && DigitRunLen(rest[b + 1..]) >= 1
  }

  /** The condition of lines 159-163 on a stripped line. */
  predicate IsCueText(line: string) {
    && line != []
    && !StartsWith(line, "WEBVTT")
    && !StartsWith(line, "-->")
    && !StartsWithClock(line)
    && !AllDigits(line)
  }

  /** What one input line adds to transcript_parts. */
  function LinePart(line: string): seq<string> {
    var l := Strip(line);
    if IsCueText(l) && Cleaned(l) != [] then [Cleaned(l)] else []
  }

  /** transcript_parts once the loop has seen lines. */
  function CueParts(lines: seq<string>): seq<string> {
    Flatten(lines, LinePart)
  }

  /** What parse_vtt_content returns. */
  function VttTranscript(vttContent: string): string {
    var parts := CueParts(SplitOn(vttContent, '\n'));
    if parts == [] then NoVttContent else Join(parts, " ")
  }

  /** The two ways a line can go: dropped by the filter or by cleaning to
      nothing, or kept as its cleaned text. */
  lemma LinePartCases(line: string)
    ensures !IsCueText(Strip(line)) ==> LinePart(line) == []
    ensures IsCueText(Strip(line)) && Cleaned(Strip(line)) != [] ==> LinePart(line) == [Cleaned(Strip(line))]
    ensures LinePart(line) == [] || LinePart(line) == [Cleaned(Strip(line))]
  {
  }

  /** An empty line, a line starting with "WEBVTT" or "-->", a line starting
      with digits:digits:digits, an all-digit line and a line that cleans to
      nothing leave the transcript as if they were absent; any other line adds
      its cleaned text in its place. */
  lemma LineContribution(before: seq<string>, line: string, after: seq<string>)
    ensures !IsCueText(Strip(line)) || Cleaned(Strip(line)) == []
      ==> CueParts(before + [line] + after) == CueParts(before + after)
    ensures IsCueText(Strip(line)) && Cleaned(Strip(line)) != []
      ==> CueParts(before + [line] + after) == CueParts(before) + [Cleaned(Strip(line))] + CueParts(after)
  {
    var x, y := CueParts(before), CueParts(after);
    var part := LinePart(line);
    FlattenAppend(before + [line], after, LinePart);
    FlattenSnoc(before, line, LinePart);
    FlattenAppend(before, after, LinePart);
    assert CueParts(before + [line] + after) == x + part + y;
    LinePartCases(line);
    if part == [] {
      DropEmpty(x, part);
    }
  }

  lemma DropEmpty(x: seq<string>, part: seq<string>)
    requires part == []
    ensures x + part == x
  {
  }

  /** What a kept line contributes. */
  predicate CuePart(p: string) {
    p != [] && Trimmed(p) && NoSpaceRun(p) && Avoids(p, {'!', '?'}) && p[|p| - 1] != '.'
  }

  /** A non-empty cleaned text is a valid part. */
  lemma CleanedIsCuePart(text: string)
    ensures Cleaned(text) == [] || CuePart(Cleaned(text))
  {
    CleanedShape(text);
  }

  lemma LinePartShape(line: string)
    ensures |LinePart(line)| <= 1
    ensures LinePart(line) == [] || CuePart(LinePart(line)[0])
  {
    LinePartCases(line);
    CleanedIsCuePart(Strip(line));
  }

  /** Every part is non-empty clean text ending in something other than '.'. */
  lemma CuePartsShape(lines: seq<string>)
    ensures forall p | p in CueParts(lines) :: CuePart(p)
  {
    FlattenMembers(lines, LinePart);
    forall p | p in CueParts(lines)
      ensures CuePart(p)
    {
      var i :| 0 <= i < |lines| && p in LinePart(lines[i]);
      PartOfLine(lines[i], p);
    }
  }

  lemma PartOfLine(line: string, p: string)
    requires p in LinePart(line)
    ensures CuePart(p)
  {
    LinePartShape(line);
  }

  /** The result is the failure message exactly when no line survives; otherwise
      it is the surviving parts joined by single spaces, with no whitespace at
      either end or in a row and no '!' or '?'. */
  lemma VttTranscriptShape(vttContent: string)
    ensures var parts := CueParts(SplitOn(vttContent, '\n'));
      VttTranscript(vttContent) == NoVttContent <==> parts == []
    ensures var parts := CueParts(SplitOn(vttContent, '\n'));
      parts != [] ==> VttTranscript(vttContent) == Join(parts, " ")
    ensures var r := VttTranscript(vttContent);
      r != NoVttContent ==> Trimmed(r) && NoSpaceRun(r) && Avoids(r, {'!', '?'})
  {
    var parts := CueParts(SplitOn(vttContent, '\n'));
    CuePartsShape(SplitOn(vttContent, '\n'));
    if parts != [] {
      var r := Join(parts, " ");
      assert forall i | 0 <= i < |parts| :: CuePart(parts[i]);
      JoinWithSpaces(parts);
      JoinAvoids(parts, " ", {'!', '?'});
      JoinEnds(parts, " ");
      assert r[|r| - 1] != '.';
      assert NoVttContent[|NoVttContent| - 1] == '.';
    }
  }

  /** A timing line whose timestamps have no hours field ("00:01.000 -->
      00:04.000") is not recognised as a timing line: any line that starts
      with two digits, ':', two digits and '.' passes the filter. */
  lemma ShortTimingLineSurvives(line: string)
    requires |line| >= 6 && IsDigit(line[0]) && IsDigit(line[1]) && line[2] == ':'
    requires IsDigit(line[3]) && IsDigit(line[4]) && line[5] == '.'
    ensures IsCueText(line)
  {
    assert line[0] != 'W' && line[0] != '-';
    assert !IsDigit(line[2]);
    assert DigitRunLen(line) == 2;
    var rest := line[3..];
    assert rest[0] == line[3] && rest[1] == line[4] && rest[2] == line[5];
    assert DigitRunLen(rest) == 2;
  }

  /** One pass of the loop of parse_vtt_content (lines 157-166): strip the
      line, test it and append its cleaned text if that is not empty. */
  method AddLine(transcriptParts: seq<string>, rawLine: string) returns (parts: seq<string>)
    ensures parts == transcriptParts + LinePart(rawLine)
  {
    LinePartCases(rawLine);
    parts := transcriptParts;
    var line := Strip(rawLine);
    if IsCueText(line) {
      var cleanedLine := CleanTranscript(line);
      if cleanedLine != [] {
        parts := parts + [cleanedLine];
      } else {
        DropEmpty(parts, LinePart(rawLine));
      }
    } else {
      DropEmpty(parts, LinePart(rawLine));
    }
  }

  /** The loop of parse_vtt_content (lines 157-166) over the lines. */
  method CollectParts(lines: seq<string>) returns (transcriptParts: seq<string>)
    ensures transcriptParts == CueParts(lines)
  {
    transcriptParts := [];
    for i := 0 to |lines|
      invariant transcriptParts == CueParts(lines[..i])
    {
      PrefixSnoc(lines, i);
      FlattenSnoc(lines[..i], lines[i], LinePart);
      transcriptParts := AddLine(transcriptParts, lines[i]);
    }
    assert lines[..|lines|] == lines;
  }

  /** parse_vtt_content: split on newlines, keep the cleaned cue text lines and
      join them with single spaces, or report that nothing was found. */
  method ParseVttContent(vttContent: string) returns (r: string)
    ensures r == VttTranscript(vttContent)
  {
    var transcriptParts := CollectParts(SplitOn(vttContent, '\n'));
    if transcriptParts != [] {
      r := Join(transcriptParts, " ");
    } else {
      r := NoVttContent;
    }
  }
}
